=== FILE: README.md ===
# Trading decision core of Research-Gate, in Dafny

This project models the decision and bookkeeping logic of a single-asset,
bar-driven crypto strategy and the small pure helpers around it. Everything
is written as immutable datatypes and pure functions over reals and
sequences. The properties the code promises are proved by Dafny.

- **Position and trailing stop** (`position.dfy`, from `main.py`). The
  position is `Flat | Long(entry, stop)`. `register_entry` opens a long with
  its stop below the entry. `update_trailing` ratchets the stop up and never
  down. `should_exit` fires at or below the stop. `reset` returns to flat.
  `evaluate` updates the stop when the context carries a price and passes the
  targets through unchanged.
- **Per-bar loop** (`strategy.dfy`, from `main.py`). `OnData` is a pure step
  from the algorithm state and one host bar to a new state plus the orders
  handed to the host. The host bar carries the warm-up flag, the close, the
  clock, the ISO timestamp and the cash. The step models the exit through
  `_exit_position`, the single-position gate, the five-minute cooldown of
  `_can_trade`, the signal, allocator, guard and planner pipeline, and
  `_route_orders` with the `trade_count`, `winning_trades` and
  `last_trade_time` bookkeeping. It also models the win rate of
  `OnEndOfAlgorithm`. Runs over many bars carry two invariants: wins never
  exceed entries, and successive entries are at least one cooldown apart.
- **Signal** (`signal.dfy`). `RandomLongSignal` is modelled as a stream of
  draws from the seeded generator. The edge is 1.0 exactly when the draw is
  below the probability.
- **Fees** (`costs.py` → `costs.dfy`). The two literal nine-tier Kraken and
  Binance tables are modelled, with the unbounded last tier as its own
  variant. Also modelled: the first-match tier scan, the maker/taker choice
  and the fee arithmetic. Proved: the tables are well formed, the fallback of
  the scan is never taken for a real-valued volume, the tier boundary is inclusive, the rate never
  rises with volume, and the sign of the fee.
- **Allocator, planner, risk hook** (`portfolio.py`, `execution.py`,
  `risk.py`). Python dictionaries whose iteration order matters are
  sequences of (key, value) pairs (`dicts.dfy`). This makes the tie-break of
  `max` and the order of planned orders explicit.
- **Helpers**: the feature registry, the data-request log, the trade
  summary, the threshold alerts, the backtest command line, funding
  annualisation, `chunked`, and the pair de-duplication of
  `fetch_top_marketcap_pairs`. The HTTP responses of that function are an
  input sequence.

Some behaviours of the code are easy to misread, so they are stated
explicitly:

- When the best score is not positive, the allocator still returns the
  one-entry map `{symbol: 0.0}` (`Portfolio.AllocationExamples`).
- The immediate planner emits an order for every target, zero weights
  included (`Execution.PlanExamples`).
- An unknown fee venue is accepted when the fee model is constructed. It is
  rejected with `ValueError` only when the schedule is looked up.
- `main.py` only ever stores `"long"` or `None` as the position side, so the
  model has no short side.

Prices, rates and fees are exact reals. Times are whole seconds, so the
cooldown is 300.

## Model

| member | source | states |
|---|---|---|
| Position.RegisterEntry | main.py:88-91 | Entry opens a long at the price with stop price·(1−pct). For pct in [0,1] and a non-negative price the stop lies between 0 and the entry. |
| Position.UpdateTrailing | main.py:93-96 | A flat state is unchanged. A long keeps its entry. The new stop is at least the old stop and at least the trailing candidate, and is one of the two (their maximum). |
| Position.ShouldExit | main.py:98-99 | Exit holds iff the side is long and the price is at or below the stop; it never holds when flat. |
| Position.Reset | main.py:101-104 | Reset gives a flat state whose entry and stop prices both read 0. |
| Position.Evaluate | main.py:106-110 | Targets come back unchanged. The stop is updated with the context's "price" when present, and the state is untouched otherwise. |
| Position.StopFloorKept | main.py:88-104 | Entry, trailing update and reset all keep the stop of an open position at or above the initial stop of its entry. |
| Position.RatchetIsRunningMax | main.py:93-96 | After any run of updates the position is the same long. Its stop has not fallen, is at or above every price's candidate, and is either the starting stop or one of those candidates. |
| Position.FlatStaysFlat | main.py:93-96 | Any run of trailing updates leaves a flat position flat. |
| Position.ExitOnlyBelowPreviousStop | main.py:93-99 | For positive price and pct, the bar that ratchets the stop triggers an exit iff it is at or below the stop held before it. |
| Position.TrailingScenario | main.py:88-99 | Entry 100 with 3 % gives stop 97. A bar at 110 lifts it to 106.7. At 108 there is no exit and the stop is unchanged. At 106 the guard exits. |
| Signal.NewRandomLongSignal | main.py:70-72 | The signal keeps the given probability and the seed's draw stream. |
| Signal.SignalDefaults | main.py:70 | Without an explicit probability the signal fires with probability 0.3. |
| Signal.ScoreDraw | main.py:74-77 | Edge is 1.0 iff draw < probability, otherwise 0.0. Confidence is 0.5 iff the edge is positive, otherwise 0.0. |
| Signal.ScoreNext | main.py:70-77 | Each score consumes exactly one draw, the next unused one of the seeded stream. The score is the scoring rule applied to that draw: edge 1.0 iff the draw is below the probability and 0.0 otherwise, and confidence 0.5 iff the edge is positive and 0.0 otherwise. |
| Signal.FeaturesIgnored | main.py:74-77 | The score does not depend on the features passed in, only on the draw stream and the probability. |
| Strategy.ExitPosition | main.py:175-185 | No-op when flat. When long, it fails exactly on a zero entry price (division). Otherwise it goes flat, emits one liquidation, and adds a win exactly when (price−entry)/entry > 0. Nothing else changes. |
| Strategy.RouteOrders | main.py:193-205 | No cash or no order for the tracked symbol means nothing happens. Otherwise the first matching order opens a long at the price, stamps the bar time and adds exactly one trade. |
| Strategy.Enter | main.py:160-173 | One draw is consumed. A position opens, with one SetHoldings at the configured fraction, iff the draw fires and cash is positive. Otherwise only the draw count changes. |
| Strategy.OnData | main.py:138-173 | Warm-up or a missing bar leaves everything unchanged. A failure only comes from a long with zero entry. At most one order is emitted per bar. |
| Strategy.OnDataTransitions | main.py:148-173 | After warm-up and with a bar, a long is first ratcheted. It then exits through `_exit_position` when the guard fires, or else stays long with the ratcheted stop and no order. From flat, the bar tries an entry iff the cooldown has elapsed, and changes nothing otherwise. |
| Strategy.OnDataLong | main.py:148-155 | For a long with non-zero entry the step succeeds. The position closes, with one "Stop loss hit" liquidation and the trade count and clock unchanged, iff the close is at or below max(old stop, trailing candidate). Otherwise the only change is the ratcheted stop. |
| Strategy.ZeroEntryExitFails | main.py:150-151 | A long with zero entry whose ratcheted stop is hit fails with the division error of main.py:179. |
| Strategy.CanTrade | main.py:207-208 | Trading is allowed iff at least the minimum interval has passed since the last entry. |
| Strategy.DefaultCooldown | main.py:123 | Under the defaults of `Initialize`, trading is allowed iff at least 300 s have passed since the last entry. |
| Strategy.EntryGates | main.py:138-205 | A step adds at most one trade. An entry happens only from flat, after warm-up, with a bar, once the cooldown has elapsed, with positive cash and a firing draw. It then sets `last_trade_time` to the bar time. Without an entry the cooldown clock does not move. |
| Strategy.InitialInv | main.py:121-136 | The initial state satisfies the invariant. |
| Strategy.StepKeepsInv | main.py:138-205 | Every successful step keeps wins + (1 if long) ≤ trades, and keeps the stop floor. |
| Strategy.PositivePricesNeverFail | main.py:179 | With positive closes no step fails and entries stay positive. |
| Strategy.RunRespectsCooldown | main.py:207-208 | Over any run, every entry is counted. The first entry is at least one cooldown after the starting clock, successive entries are at least one cooldown apart, and the invariant holds at the end. |
| Strategy.FreshRunBounds | main.py:122-124 | From a fresh start the win rate stays in [0,100]. The first entry is at least 300 s after the start date. |
| Strategy.WinRate | main.py:189 | With trades, rate · trades = 100 · wins, so the rate is 100·wins/trades. With no trades it is 0 (no division). It lies in [0,100] whenever wins ≤ trades. |
| Strategy.BarScenario | main.py:138-185 | Fresh start with an always-firing signal. A bar at 100 enters with stop 97 and SetHoldings 0.95. A bar at 110 gives stop 106.7. A bar at 108 changes nothing. A bar at 106 exits with one win. A bar inside the cooldown does nothing. |
| Risk.Evaluate | research/scripts/risk.py:24-44 | Both the base guard and the stub trailing guard return their targets unchanged. |
| Risk.FreshRiskState | research/scripts/risk.py:16-21 | A fresh risk state has pnl 0, no exposure and no breaker. |
| Risk.StubIsBase | research/scripts/risk.py:36-44 | The stub defaults to a 0.03 stop and evaluates exactly as the base guard. |
| Portfolio.NewFixedFractionAllocator | research/scripts/portfolio.py:33-34 | The allocator keeps the given fraction. |
| Portfolio.AllocatorDefaults | research/scripts/portfolio.py:33 | Without an explicit fraction the allocator sizes at 0.95. |
| Portfolio.FirstMax | research/scripts/portfolio.py:41 | The index holds a maximal score and every earlier entry scores strictly less (Python `max` keeps the first maximum). |
| Portfolio.Compute | research/scripts/portfolio.py:36-43 | Empty scores give empty weights and notes "". Otherwise exactly one weight, on the first maximal key: the fraction if that score > 0, else 0.0. The notes are then the placeholder text. |
| Portfolio.WeightIsFractionIffPositive | research/scripts/portfolio.py:41-42 | For a non-zero fraction, the weight is the fraction iff some score is positive. |
| Portfolio.ContextIgnored | research/scripts/portfolio.py:36-43 | The allocation does not depend on the context. |
| Portfolio.AllocationExamples | research/scripts/portfolio.py:33-43 | Empty scores give {}. {"X": 0} gives {"X": 0.0}. {"X": 1} gives {"X": 0.95}. A tie goes to the first key. |
| Execution.ImmediatePlan | research/scripts/execution.py:36-48 | One order per target, in target order, with the target's symbol and quantity (zeros included). Each order has no price, type "MARKET", and eta = context "timestamp" or "T+0". |
| Execution.Plan | research/scripts/execution.py:26-48 | The base planner always fails (NotImplementedError). The immediate planner always succeeds with the immediate plan. |
| Execution.PlanSplits | research/scripts/execution.py:38-47 | Planning a concatenation of targets is the concatenation of the plans. |
| Execution.PlanExamples | research/scripts/execution.py:45 | A zero weight still gets an order. A missing timestamp gives eta "T+0". Empty targets give no orders. |
| Costs.GetSchedule | research/scripts/costs.py:61-66 | Succeeds iff the venue is "kraken" or "binance", with ValueError otherwise. "kraken" gives the Kraken table and "binance" the Binance table. Every schedule returned is well formed and column-ordered. |
| Costs.NewFeeModel | research/scripts/costs.py:50-59 | The stored venue is the given venue lower-cased character by character. Volume and maker flag are kept as given. |
| Costs.FirstCoveringFrom | research/scripts/costs.py:70-71 | Returns the first tier with volume ≤ threshold. No earlier tier covers the volume. None means no tier does. |
| Costs.SelectRate | research/scripts/costs.py:68-74 | For a known venue the rate is the first covering tier's maker or taker bps / 10 000, chosen by `assume_maker`. |
| Costs.GetOrderFee | research/scripts/costs.py:76-82 | The fee is price · abs(quantity) · rate, in the quote currency. It fails iff the venue is unknown. |
| Costs.CheckedIsOrdered | research/scripts/costs.py:21-44 | A table that passes the tier-by-tier check is well formed and column-ordered. |
| Costs.KrakenIsWellFormed | research/scripts/costs.py:21-31 | The Kraken ceilings strictly ascend to an unbounded tier. Taker ≥ maker in every tier, and both columns are non-increasing. |
| Costs.BinanceIsWellFormed | research/scripts/costs.py:34-44 | The same holds for the Binance table. |
| Costs.FallbackUnreachable | research/scripts/costs.py:74 | With an unbounded last tier some tier always covers a real-valued volume, so the fallback is never taken for a real-valued volume. |
| Costs.TierBracket | research/scripts/costs.py:68-73 | Tier i is selected iff the volume is above the previous ceiling and within its own. |
| Costs.RateNonIncreasing | research/scripts/costs.py:21-44 | A larger trailing volume never selects a higher rate. |
| Costs.MakerNoDearerThanTaker | research/scripts/costs.py:21-44 | At every volume the maker rate is at most the taker rate. |
| Costs.VenueIsCaseInsensitive | research/scripts/costs.py:57-66 | "Kraken" and "BINANCE" select their tables. "coinbase" is rejected. |
| Costs.KrakenTakerBoundary | research/scripts/costs.py:68-73 | Kraken taker at 50 000 is 0.0026 and at 50 001 is 0.0024. |
| Costs.FeeSign | research/scripts/costs.py:76-82 | For a non-negative price the fee is ≥ 0, except for Kraken makers above 10 000 000. For them a positive price and non-zero quantity give a negative fee (the rebate). |
| Text.Upper | research/scripts/universe_utils.py:47 | Upper-casing keeps the length and maps each character through ASCII upper-casing. |
| Text.Lower | research/scripts/costs.py:57 | Lower-casing keeps the length and maps each character through ASCII lower-casing. |
| FeatureStore.NewFeatureSpec | research/scripts/feature_store.py:12-21 | The spec keeps every given field: name, inputs, window, description, version and params. |
| FeatureStore.SpecDefaults | research/scripts/feature_store.py:20-21 | A spec built without `version` or `params` has version "v0" and no params. |
| FeatureStore.NewRegistry | research/scripts/feature_store.py:27-29 | A new registry is valid, and every name fails to describe with KeyError. |
| FeatureStore.Describe | research/scripts/feature_store.py:37-40 | Fails with KeyError(name) iff the name has no spec. Otherwise it returns the stored spec. |
| FeatureStore.Builder | research/scripts/feature_store.py:42-45 | Fails with KeyError(name) iff the name has no builder. Otherwise it returns the stored builder. |
| FeatureStore.Register | research/scripts/feature_store.py:31-35 | After registering, the name describes to the spec and yields the builder, overwriting earlier values. Other names are unchanged, and validity is kept. |
| FeatureStore.LookupsAgree | research/scripts/feature_store.py:37-45 | In a valid registry `describe` succeeds iff `builder` does. A described spec carries the looked-up name. |
| FeatureStore.ReRegisterOverwrites | research/scripts/feature_store.py:34-35 | Registering the same name twice equals registering only the second spec and builder. |
| DataLoader.NewLoader | research/scripts/data_loader.py:36-37 | A new loader lists no requests. |
| DataLoader.ListRequests | research/scripts/data_loader.py:44-47 | Lists every stored spec, in storage order, element by element. |
| DataLoader.Register | research/scripts/data_loader.py:39-42 | Register appends the spec at the end and keeps earlier entries. |
| DataLoader.ListsInRegistrationOrder | research/scripts/data_loader.py:39-47 | Registering specs one by one lists them after the earlier ones, in registration order. |
| DataLoader.SpecDefaults | research/scripts/data_loader.py:27-30 | The defaults are fill_forward true, normalization "Adjusted", no extended hours and no extra parameters. |
| Reporting.SummarizeTrades | research/scripts/reporting.py:20-31 | No trades give (0,0). Otherwise the call fails iff the quantities sum to 0. On success pnl = Σ qty·price and avg_fill · Σ qty = pnl. |
| Reporting.FeesIgnored | research/scripts/reporting.py:17-31 | Trade lists differing only in fees summarise identically. |
| Reporting.SumsSplit | research/scripts/reporting.py:29-30 | Gross and total quantity are additive over concatenation. |
| Monitoring.CheckThresholds | research/scripts/monitoring.py:21-29 | The result keys equal the threshold keys in order. Each flag is metric (0.0 if missing) > limit. |
| Monitoring.FlagsFollowThresholds | research/scripts/monitoring.py:27-29 | A name has a flag iff it has a threshold. Distinct threshold keys give distinct result keys. |
| Monitoring.ThresholdExamples | research/scripts/monitoring.py:28 | The comparison is strict. A missing metric reads 0.0. Empty thresholds give an empty result. |
| BacktestRunner.ParameterArgs | research/scripts/backtest_runner.py:22-24 | Each override contributes "--parameter", "key=value", in override order. |
| BacktestRunner.BuildCommand | research/scripts/backtest_runner.py:15-25 | The command starts with lean cloud backtest <path>, has length 4 + 2·overrides (4 for None or empty), and the override pairs follow in order. |
| BacktestRunner.CommandExtends | research/scripts/backtest_runner.py:23-24 | Overrides given in two parts extend the command part by part. |
| Crypto.AnnualizeFunding | research/scripts/crypto/__init__.py:18-21 | Over exact reals, the result is (1+rate)^n − 1 for n ≥ 0. For n < 0 it is the reciprocal power minus 1. Over reals it fails iff n < 0 and rate = −1 (ZeroDivisionError); float overflow is left out. |
| Crypto.AnnualizeBasics | research/scripts/crypto/__init__.py:18-21 | Rate 0 gives 0. One period gives the rate. Zero periods give 0. The default is 365 periods. |
| Crypto.Compounding | research/scripts/crypto/__init__.py:21 | Growth over m+n periods is growth over m times growth over n. |
| Crypto.CompoundAtLeastSimple | research/scripts/crypto/__init__.py:21 | For rate ≥ −1 the annualised value is at least n·rate (Bernoulli). |
| Chunking.CutFullChunks | research/scripts/data_fetchers/utils.py:103-108 | The emitted chunks plus the pending chunk rebuild the input. With size > 0, every emitted chunk has exactly `size` items and the pending one fewer. |
| Chunking.Chunked | research/scripts/data_fetchers/utils.py:102-110 | Flattening the chunks rebuilds the input, and no chunk is empty. With size > 0 every chunk but the last has `size` items, the last has at most `size`, and there are ⌈n/size⌉ chunks. With size ≤ 0 there is one chunk holding everything (none for empty input). |
| Universe.PagePairsMembers | research/scripts/universe_utils.py:43-48 | A page's pairs are exactly upper(symbol)+"USD" of its entries with a non-empty symbol. |
| Universe.Collect | research/scripts/universe_utils.py:23-53 | No request when remaining ≤ 0. Pages are requested 1, 2, … in order. The first asks for min(250, remaining), and each asks for between 1 and 250 and at most remaining. |
| Universe.CollectPageSizes | research/scripts/universe_utils.py:28-52 | Request k asks for min(250, remaining − the entries of the k earlier responses). |
| Universe.CollectFullPages | research/scripts/universe_utils.py:40-53 | Every request but the last came back with at least as many entries as it asked for. |
| Universe.CollectStops | research/scripts/universe_utils.py:28-51 | After the last request the loop stopped for a reason. Either that page was short or empty, or the entries received cover everything still wanted. |
| Universe.CollectedPairs | research/scripts/universe_utils.py:28-53 | The collected tickers are the pairs of every response received, in order. |
| Universe.Dedupe | research/scripts/universe_utils.py:55-61 | The output has no duplicates and the same elements as the input. It is no longer than the input and ordered by first occurrence. |
| Universe.Take | research/scripts/universe_utils.py:62 | Python slicing `[:limit]` gives a prefix. It has length min(limit, n) for limit ≥ 0, and a negative limit drops that many items from the end (none left if it exceeds n). |
| Universe.FetchTopMarketcapPairs | research/scripts/universe_utils.py:11-62 | The result has no duplicates and at most max(limit,0) pairs. limit ≤ 0 means no request and no pair. Every pair comes from a non-empty symbol of a received response. Pairs are in order of first occurrence, with no skipped pair before any returned one. When fewer than `limit` pairs come back, every received pair is among them. The requests are exactly those of the paging loop `Collect` from page 1 with max(limit,0) wanted. |

## Left out

- KrakenMinuteAdapter and SimpleFeatureEngine (main.py) are host and data wiring. The only feature used, the close price, is passed straight to the signal.
- QCAlgorithm host calls: SetHoldings and Liquidate are returned as effects. Portfolio.Cash, IsWarmingUp, Time and the slice lookup are inputs of each step. Log is left out.
- The total return of OnEndOfAlgorithm depends on the host's portfolio value and is left out; the win rate is modelled.
- random.Random: the seeded generator is the stream of its draws (`draws(k)` is the k-th `random()` call). The Mersenne Twister itself is not modelled.
- The 2024 start and end dates and the 100 000 starting cash are host setup. The start time is a parameter.
- IEEE-754 rounding: all prices, rates and fees are exact reals. The 106.7 of the scenario is exact here, not a rounded float.
- Text.Lower: str.lower is modelled for ASCII letters only, not full Unicode case mapping.
- Text.Upper: str.upper is modelled for ASCII letters only, not full Unicode case mapping.
- Costs.FallbackUnreachable: the volume is an exact real, so it cannot be NaN. In Python a NaN `trailing_30d_volume` fails every `<=` test at costs.py:71 and reaches the fallback at costs.py:74. That fallback returns the last tier's taker rate even when `assume_maker` is set (8 bps for Kraken). The model does not cover that path; `Costs.SelectRate` likewise assumes a real volume.
- Costs.GetOrderFee: takes the signed order quantity and the quote currency symbol as plain inputs; the host's OrderFee and CashAmount types are replaced by an (amount, currency) value.
- FeatureStore.Register: builder callables are values of an arbitrary type; their behaviour is not modelled. The `Any` values of `params` are modelled as strings.
- DataLoader.NewDataRequestSpec: `additional_params` values (`Any`) are modelled as strings.
- BacktestRunner.BuildCommand: the config path and override values are taken already rendered by `str`/f-string formatting.
- Crypto.AnnualizeFunding: the power is computed exactly over reals. The `OverflowError` that Python's `float ** int` raises when the result overflows (for example rate 1.0 over 2000 periods) is not modelled; the model returns the exact value instead.
- Universe.FetchTopMarketcapPairs: the HTTP requests, raise_for_status and JSON decoding are replaced by the `pages` input. A request beyond the supplied pages is answered by an empty page. The `vs_currency` and other query parameters are not modelled, only page number and page size.
- The data fetchers (funding, defi, onchain, sentiment, tokenomics, execution) are network and file I/O. So are the rest of data_fetchers/utils.py (json_request, file writers, ensure_directory, env_or_raise, merge_frames) and its RateLimiter, which uses the wall clock. qc_native_features.py (pandas rolling statistics) is also out.
- signals/__init__.py and data_fetchers/__init__.py hold no logic.
- Short positions: the code never stores a short side, so none is modelled.

=== FILE: backtest_runner.dfy ===
/** The backtest command line of research/scripts/backtest_runner.py. The
    config path and the override values are given already rendered by `str`. */
module BacktestRunner {
  import opened Wrappers
  import opened Dicts

  /** `f"{key}={value}"`. */
  function Assignment(key: string, value: string): string {
    key + "=" + value
  }

  /** The `--parameter key=value` pairs, one per override, in override order. */
  function ParameterArgs(overrides: Dict<string, string>): (r: seq<string>)
    ensures |r| == 2 * |overrides|
    ensures forall i :: 0 <= i < |overrides| ==>
      r[2 * i] == "--parameter" && r[2 * i + 1] == Assignment(overrides[i].0, overrides[i].1)
  {
    if |overrides| == 0 then []
    else
      var rest := ParameterArgs(overrides[1..]);
      var r := ["--parameter", Assignment(overrides[0].0, overrides[0].1)] + rest;
      assert forall i :: 0 <= i < |overrides| ==>
        r[2 * i] == "--parameter" && r[2 * i + 1] == Assignment(overrides[i].0, overrides[i].1) by {
        forall i | 0 <= i < |overrides|
          ensures r[2 * i] == "--parameter" && r[2 * i + 1] == Assignment(overrides[i].0, overrides[i].1)
        {
          if i > 0 {
            assert overrides[1..][i - 1] == overrides[i];
            assert r[2 * i] == rest[2 * (i - 1)];
            assert r[2 * i + 1] == rest[2 * (i - 1) + 1];
          }
        }
      }
      r
  }

  function OverrideCount(overrides: Option<Dict<string, string>>): nat {
    if overrides.Some? then |overrides.value| else 0
  }

  /** `build_command`: the fixed `lean cloud backtest <path>` prefix, followed
      by the override parameters when there are any. */
  function BuildCommand(configPath: string, overrides: Option<Dict<string, string>>): (r: seq<string>)
    ensures |r| == 4 + 2 * OverrideCount(overrides)
    ensures r[..4] == ["lean", "cloud", "backtest", configPath]
    ensures forall i :: 0 <= i < OverrideCount(overrides) ==>
      r[4 + 2 * i] == "--parameter" && r[5 + 2 * i] == Assignment(overrides.value[i].0, overrides.value[i].1)
  {
    var cmd := ["lean", "cloud", "backtest", configPath];
    if overrides.Some? && |overrides.value| > 0 then cmd + ParameterArgs(overrides.value) else cmd
  }

  /** Overrides given in two parts extend the command part by part. */
  lemma {:induction false} CommandExtends(configPath: string, a: Dict<string, string>, b: Dict<string, string>)
    ensures BuildCommand(configPath, Some(a + b)) == BuildCommand(configPath, Some(a)) + ParameterArgs(b)
  {
    ParameterArgsSplit(a, b);
  }

  lemma {:induction false} ParameterArgsSplit(a: Dict<string, string>, b: Dict<string, string>)
    ensures ParameterArgs(a + b) == ParameterArgs(a) + ParameterArgs(b)
    decreases |a|
  {
    if |a| > 0 {
      assert (a + b)[0] == a[0];
      assert (a + b)[1..] == a[1..] + b;
      ParameterArgsSplit(a[1..], b);
    } else {
      assert a + b == b;
    }
  }
}

=== FILE: chunking.dfy ===
/** The `chunked` generator of research/scripts/data_fetchers/utils.py. */
module Chunking {

  /** The chunks joined back together, left to right. */
  function Flatten<T>(chunks: seq<seq<T>>): seq<T> {
    if |chunks| == 0 then [] else Flatten(chunks[..|chunks| - 1]) + chunks[|chunks| - 1]
  }

  lemma FlattenSnoc<T>(chunks: seq<seq<T>>, c: seq<T>)
    ensures Flatten(chunks + [c]) == Flatten(chunks) + c
  {
    assert (chunks + [c])[..|chunks|] == chunks;
  }

  /** Euclidean division is determined by quotient and remainder. */
  lemma DivUnique(n: int, d: int, q: int, r: int)
    requires d > 0 && 0 <= r < d && n == q * d + r
    ensures n / d == q
  {
    var t := q - n / d;
    assert t * d == n % d - r;
  }

  lemma MulSucc(k: int, size: int)
    ensures (k + 1) * size == k * size + size
  {
  }

  /** The loop of `chunked`: the chunks emitted while scanning, and the
      partial chunk left when the items run out. */
  method CutFullChunks<T>(items: seq<T>, size: int) returns (chunks: seq<seq<T>>, rest: seq<T>)
    ensures Flatten(chunks) + rest == items
    ensures size > 0 ==> forall k :: 0 <= k < |chunks| ==> |chunks[k]| == size
    ensures size > 0 ==> |rest| < size && |chunks| * size + |rest| == |items|
    ensures size <= 0 ==> chunks == [] && rest == items
  {
    chunks := [];
    rest := [];
    var i := 0;
    while i < |items|
      invariant 0 <= i <= |items|
      invariant Flatten(chunks) + rest == items[..i]
      invariant size > 0 ==> forall k :: 0 <= k < |chunks| ==> |chunks[k]| == size
      invariant size > 0 ==> |rest| < size && |chunks| * size + |rest| == i
      invariant size <= 0 ==> chunks == [] && rest == items[..i]
    {
      rest := rest + [items[i]];
      assert items[..i + 1] == items[..i] + [items[i]];
      if |rest| == size {
        FlattenSnoc(chunks, rest);
        MulSucc(|chunks|, size);
        chunks := chunks + [rest];
        rest := [];
      }
      i := i + 1;
    }
    assert items[..i] == items;
  }

  /** `chunked(items, size)`: the items in order, cut after every `size`-th
      one, with the remainder as a last, shorter chunk. A size of zero or
      less never matches a chunk length, so everything lands in one chunk. */
  method Chunked<T>(items: seq<T>, size: int) returns (chunks: seq<seq<T>>)
    ensures Flatten(chunks) == items
    ensures forall k :: 0 <= k < |chunks| ==> |chunks[k]| > 0
    ensures size > 0 ==> forall k :: 0 <= k < |chunks| - 1 ==> |chunks[k]| == size
    ensures size > 0 && |chunks| > 0 ==> |chunks[|chunks| - 1]| <= size
    ensures size > 0 ==> |chunks| == (|items| + size - 1) / size
    ensures size <= 0 ==> chunks == (if |items| == 0 then [] else [items])
  {
    var rest;
    chunks, rest := CutFullChunks(items, size);
    var full := |chunks|;
    if |rest| > 0 {
      FlattenSnoc(chunks, rest);
      chunks := chunks + [rest];
    } else {
      assert Flatten(chunks) == items;
    }
    if size > 0 {
      MulSucc(full, size);
      if |rest| == 0 {
        DivUnique(|items| + size - 1, size, full, size - 1);
      } else {
        DivUnique(|items| + size - 1, size, full + 1, |rest| - 1);
      }
    }
  }
}

=== FILE: costs.dfy ===
/** Tiered maker/taker exchange fees (research/scripts/costs.py). */
module Costs {
  import opened Wrappers
  import Text

  /** A tier ceiling in USD of 30-day volume; `float("inf")` is `Unbounded`. */
  datatype Threshold = AtMost(limit: real) | Unbounded

  datatype FeeTier = FeeTier(threshold: Threshold, makerBps: int, takerBps: int)

  /** `volume <= tier.volume_threshold`, the test of the tier scan. */
  predicate Covers(t: FeeTier, volume: real) {
    match t.threshold
    case AtMost(limit) => volume <= limit
    case Unbounded => true
  }

  const KrakenSpotSchedule: seq<FeeTier> := [
    FeeTier(AtMost(50_000.0), 16, 26),
    FeeTier(AtMost(100_000.0), 14, 24),
    FeeTier(AtMost(250_000.0), 12, 22),
    FeeTier(AtMost(500_000.0), 10, 20),
    FeeTier(AtMost(1_000_000.0), 6, 16),
    FeeTier(AtMost(2_500_000.0), 4, 14),
    FeeTier(AtMost(5_000_000.0), 2, 12),
    FeeTier(AtMost(10_000_000.0), 0, 10),
    FeeTier(Unbounded, -2, 8)
  ]

  const BinanceSpotSchedule: seq<FeeTier> := [
    FeeTier(AtMost(1_000_000.0), 10, 10),
    FeeTier(AtMost(5_000_000.0), 9, 10),
    FeeTier(AtMost(20_000_000.0), 8, 10),
    FeeTier(AtMost(100_000_000.0), 7, 9),
    FeeTier(AtMost(150_000_000.0), 6, 9),
    FeeTier(AtMost(250_000_000.0), 5, 9),
    FeeTier(AtMost(500_000_000.0), 4, 8),
    FeeTier(AtMost(750_000_000.0), 3, 8),
    FeeTier(Unbounded, 2, 4)
  ]

  /** A schedule as the module intends it: non-empty, every tier but the last
      bounded, ceilings strictly ascending, the last tier unbounded. */
  predicate WellFormed(s: seq<FeeTier>) {
    && |s| > 0
    && s[|s| - 1].threshold.Unbounded?
    && (forall i :: 0 <= i < |s| - 1 ==> s[i].threshold.AtMost?)
    && (forall i :: 0 <= i < |s| - 2 ==> s[i].threshold.limit < s[i + 1].threshold.limit)
  }

  /** Every tier charges takers at least as much as makers, and both columns
      never rise from one tier to the next. */
  predicate ColumnsOrdered(s: seq<FeeTier>) {
    && (forall i :: 0 <= i < |s| ==> s[i].makerBps <= s[i].takerBps)
    && (forall i :: 0 <= i < |s| - 1 ==> s[i + 1].makerBps <= s[i].makerBps)
    && (forall i :: 0 <= i < |s| - 1 ==> s[i + 1].takerBps <= s[i].takerBps)
  }

  /** The loop `for tier in schedule: if volume <= tier.volume_threshold`,
      continued from position `from`: the index of the first covering tier. */
  function FirstCoveringFrom(s: seq<FeeTier>, volume: real, from: nat): (r: Option<nat>)
    requires from <= |s|
    ensures r.Some? ==> from <= r.value < |s| && Covers(s[r.value], volume)
    ensures r.Some? ==> forall j :: from <= j < r.value ==> !Covers(s[j], volume)
    ensures r.None? ==> forall j :: from <= j < |s| ==> !Covers(s[j], volume)
    decreases |s| - from
  {
    if from == |s| then None
    else if Covers(s[from], volume) then Some(from)
    else FirstCoveringFrom(s, volume, from + 1)
  }

  function FirstCovering(s: seq<FeeTier>, volume: real): Option<nat> {
    FirstCoveringFrom(s, volume, 0)
  }

  /** `bps / 10_000`. */
  function BpsToRate(bps: int): real {
    bps as real / 10_000.0
  }

  /** The rate a tier charges for the given role. */
  function TierRate(t: FeeTier, assumeMaker: bool): real {
    BpsToRate(if assumeMaker then t.makerBps else t.takerBps)
  }

  /** The body of `_select_rate` once the schedule is known: the first covering
      tier's maker or taker rate, falling back to the last tier's taker rate. */
  function ScanRate(s: seq<FeeTier>, volume: real, assumeMaker: bool): real
    requires |s| > 0
  {
    match FirstCovering(s, volume)
    case Some(i) => TierRate(s[i], assumeMaker)
    case None => BpsToRate(s[|s| - 1].takerBps)
  }

  /** `TieredCryptoFeeModel`; the venue is lower-cased on construction. */
  datatype FeeModel = FeeModel(venue: string, volume: real, assumeMaker: bool)

  datatype FeeError = UnsupportedVenue(venue: string)

  function NewFeeModel(venue: string, trailingVolume: real := 0.0, assumeMaker: bool := false): (m: FeeModel)
    ensures |m.venue| == |venue|
    ensures forall i :: 0 <= i < |venue| ==> m.venue[i] == Text.LowerChar(venue[i])
    ensures m.volume == trailingVolume && m.assumeMaker == assumeMaker
  {
    FeeModel(Text.Lower(venue), trailingVolume, assumeMaker)
  }

  /** `get_schedule`: one of the two literal tables, or `ValueError`. */
  function GetSchedule(m: FeeModel): (r: Result<seq<FeeTier>, FeeError>)
    ensures r.Success? <==> m.venue == "kraken" || m.venue == "binance"
    ensures r.Failure? ==> r.error == UnsupportedVenue(m.venue)
    ensures r.Success? ==> WellFormed(r.value) && ColumnsOrdered(r.value)
    ensures m.venue == "kraken" ==> r == Success(KrakenSpotSchedule)
    ensures m.venue == "binance" ==> r == Success(BinanceSpotSchedule)
  {
    KrakenIsWellFormed();
    BinanceIsWellFormed();
    if m.venue == "kraken" then Success(KrakenSpotSchedule)
    else if m.venue == "binance" then Success(BinanceSpotSchedule)
    else Failure(UnsupportedVenue(m.venue))
  }

  /** `_select_rate`. */
  function SelectRate(m: FeeModel): (r: Result<real, FeeError>)
    ensures r.Success? <==> GetSchedule(m).Success?
    ensures r.Success? ==>
      exists i :: 0 <= i < |GetSchedule(m).value|
        && FirstCovering(GetSchedule(m).value, m.volume) == Some(i)
        && r.value == TierRate(GetSchedule(m).value[i], m.assumeMaker)
  {
    var s :- GetSchedule(m);
    FallbackUnreachable(s, m.volume);
    Success(ScanRate(s, m.volume, m.assumeMaker))
  }

  function Abs(x: real): real {
    if x < 0.0 then -x else x
  }

  /** The fee of an order: amount in the quote currency. */
  datatype OrderFee = OrderFee(amount: real, currency: string)

  /** `GetOrderFee`: price times absolute quantity times the selected rate. */
  function GetOrderFee(m: FeeModel, price: real, quantity: real, quoteCurrency: string): (r: Result<OrderFee, FeeError>)
    ensures r.Success? <==> GetSchedule(m).Success?
    ensures r.Success? ==> r.value.currency == quoteCurrency
    ensures r.Success? ==> r.value.amount == price * Abs(quantity) * SelectRate(m).value
  {
    var rate :- SelectRate(m);
    Success(OrderFee(price * Abs(quantity) * rate, quoteCurrency))
  }

  /** A tier-by-tier reading of `WellFormed` and `ColumnsOrdered`, checked
      by walking the table from its head. */
  predicate CheckedFrom(s: seq<FeeTier>)
    decreases |s|
  {
    && |s| > 0
    && s[0].makerBps <= s[0].takerBps
    && (|s| == 1 ==> s[0].threshold.Unbounded?)
    && (|s| > 1 ==>
          && s[0].threshold.AtMost?
          && (s[1].threshold.AtMost? ==> s[0].threshold.limit < s[1].threshold.limit)
          && s[1].makerBps <= s[0].makerBps
          && s[1].takerBps <= s[0].takerBps
          && CheckedFrom(s[1..]))
  }

  lemma {:induction false} CheckedIsOrdered(s: seq<FeeTier>)
    requires CheckedFrom(s)
    ensures WellFormed(s) && ColumnsOrdered(s)
    decreases |s|
  {
    if |s| > 1 {
      CheckedIsOrdered(s[1..]);
      forall i | 1 <= i < |s|
        ensures s[i] == s[1..][i - 1]
      {
      }
    }
  }

  lemma KrakenIsWellFormed()
    ensures WellFormed(KrakenSpotSchedule) && ColumnsOrdered(KrakenSpotSchedule)
  {
    CheckedIsOrdered(KrakenSpotSchedule);
  }

  lemma BinanceIsWellFormed()
    ensures WellFormed(BinanceSpotSchedule) && ColumnsOrdered(BinanceSpotSchedule)
  {
    CheckedIsOrdered(BinanceSpotSchedule);
  }

  /** With an unbounded last tier some tier always covers the volume, so the
      fallback of `_select_rate` is never taken. */
  lemma FallbackUnreachable(s: seq<FeeTier>, volume: real)
    requires WellFormed(s)
    ensures FirstCovering(s, volume).Some?
  {
    assert Covers(s[|s| - 1], volume);
  }

  /** Strictly ascending adjacent ceilings are ascending between any two tiers. */
  lemma {:induction false} CeilingsAscend(s: seq<FeeTier>, i: nat, j: nat)
    requires WellFormed(s)
    requires i < j < |s| - 1
    ensures s[i].threshold.limit < s[j].threshold.limit
    decreases j - i
  {
    if i + 1 < j {
      CeilingsAscend(s, i + 1, j);
    }
  }

  /** In a well-formed schedule tier `i` is selected exactly when the volume
      lies in its bracket: above the previous ceiling and within its own. */
  lemma TierBracket(s: seq<FeeTier>, volume: real, i: nat)
    requires WellFormed(s)
    requires i < |s|
    ensures FirstCovering(s, volume) == Some(i)
        <==> Covers(s[i], volume) && (i == 0 || volume > s[i - 1].threshold.limit)
  {
    if Covers(s[i], volume) && (i == 0 || volume > s[i - 1].threshold.limit) {
      forall j | 0 <= j < i
        ensures !Covers(s[j], volume)
      {
        if j < i - 1 {
          CeilingsAscend(s, j, i - 1);
        }
      }
      FallbackUnreachable(s, volume);
      var k := FirstCovering(s, volume).value;
      assert !(k < i);
      assert !(i < k);
    }
  }

  /** Non-increasing adjacent columns are non-increasing between any two tiers. */
  lemma {:induction false} ColumnsDescend(s: seq<FeeTier>, i: nat, j: nat)
    requires ColumnsOrdered(s)
    requires i <= j < |s|
    ensures s[j].makerBps <= s[i].makerBps
    ensures s[j].takerBps <= s[i].takerBps
    decreases j - i
  {
    if i < j {
      ColumnsDescend(s, i + 1, j);
    }
  }

  /** A larger trailing volume never selects a higher rate. */
  lemma RateNonIncreasing(s: seq<FeeTier>, v1: real, v2: real, assumeMaker: bool)
    requires WellFormed(s) && ColumnsOrdered(s)
    requires v1 <= v2
    ensures ScanRate(s, v2, assumeMaker) <= ScanRate(s, v1, assumeMaker)
  {
    FallbackUnreachable(s, v1);
    FallbackUnreachable(s, v2);
    var i1 := FirstCovering(s, v1).value;
    var i2 := FirstCovering(s, v2).value;
    assert Covers(s[i2], v1);
    assert i1 <= i2;
    ColumnsDescend(s, i1, i2);
  }

  /** At any volume the maker rate is at most the taker rate. */
  lemma MakerNoDearerThanTaker(s: seq<FeeTier>, volume: real)
    requires WellFormed(s) && ColumnsOrdered(s)
    ensures ScanRate(s, volume, true) <= ScanRate(s, volume, false)
  {
    FallbackUnreachable(s, volume);
  }

  /** The venue name is case-insensitive: "Kraken" selects the Kraken table. */
  lemma VenueIsCaseInsensitive(volume: real, assumeMaker: bool)
    ensures GetSchedule(NewFeeModel("Kraken", volume, assumeMaker)) == Success(KrakenSpotSchedule)
    ensures GetSchedule(NewFeeModel("BINANCE", volume, assumeMaker)) == Success(BinanceSpotSchedule)
    ensures GetSchedule(NewFeeModel("coinbase", volume, assumeMaker)).Failure?
  {
    LowerLiteral("Kraken", "kraken");
    LowerLiteral("BINANCE", "binance");
    LowerLiteral("coinbase", "coinbase");
  }

  /** Lower-casing a literal is checked character by character. */
  lemma LowerLiteral(s: string, t: string)
    requires |s| == |t|
    requires forall i :: 0 <= i < |s| ==> Text.LowerChar(s[i]) == t[i]
    ensures Text.Lower(s) == t
  {
  }

  /** The tier boundary is inclusive: 50 000 USD is still the first Kraken tier
      (26 bps taker), 50 001 USD is the second (24 bps). */
  lemma KrakenTakerBoundary()
    ensures SelectRate(NewFeeModel("kraken", 50_000.0, false)) == Success(0.0026)
    ensures SelectRate(NewFeeModel("kraken", 50_001.0, false)) == Success(0.0024)
  {
    LowerLiteral("kraken", "kraken");
    TierBracket(KrakenSpotSchedule, 50_000.0, 0);
    TierBracket(KrakenSpotSchedule, 50_001.0, 1);
  }

  /** Fees are never negative for a non-negative price, except for makers on
      Kraken above 10 000 000 USD of volume, who receive a 2 bps rebate. */
  lemma FeeSign(m: FeeModel, price: real, quantity: real, currency: string)
    requires GetSchedule(m).Success?
    requires price >= 0.0
    ensures var rebate := m.venue == "kraken" && m.assumeMaker && m.volume > 10_000_000.0;
      && (!rebate ==> GetOrderFee(m, price, quantity, currency).value.amount >= 0.0)
      && (rebate && price > 0.0 && quantity != 0.0 ==> GetOrderFee(m, price, quantity, currency).value.amount < 0.0)
  {
    var s := GetSchedule(m).value;
    FallbackUnreachable(s, m.volume);
    var i := FirstCovering(s, m.volume).value;
    assert SelectRate(m).value == TierRate(s[i], m.assumeMaker);
    var last := |s| - 1;
    ColumnsDescend(s, i, last);
    if m.venue == "kraken" {
      TierBracket(s, m.volume, last);
      if m.volume <= 10_000_000.0 {
        ColumnsDescend(s, i, last - 1);
      }
    }
    var rate := SelectRate(m).value;
    var rebate := m.venue == "kraken" && m.assumeMaker && m.volume > 10_000_000.0;
    if !rebate {
      assert rate >= 0.0;
    } else {
      assert rate < 0.0;
      if price > 0.0 && quantity != 0.0 {
        assert price * Abs(quantity) > 0.0;
      }
    }
  }
}

=== FILE: crypto.dfy ===
/** Funding-rate annualisation of research/scripts/crypto/__init__.py. */
module Crypto {
  import opened Wrappers

  datatype FundingSnapshot = FundingSnapshot(symbol: string, rate: real, timestamp: string)

  /** `b ** n` for a whole non-negative exponent. */
  function Pow(b: real, n: nat): real {
    if n == 0 then 1.0 else b * Pow(b, n - 1)
  }

  /** A zero base raised to a negative power raises `ZeroDivisionError`. */
  datatype FundingError = ZeroDivision

  /** `annualize_funding`: `(1 + rate) ** periods - 1`; a negative number of
      periods takes the reciprocal power. */
  function AnnualizeFunding(rate: real, periodsPerYear: int := 365): (r: Result<real, FundingError>)
    ensures r.Failure? <==> periodsPerYear < 0 && rate == -1.0
    ensures periodsPerYear >= 0 ==> r == Success(Pow(1.0 + rate, periodsPerYear) - 1.0)
    ensures periodsPerYear < 0 && r.Success? ==> (r.value + 1.0) * Pow(1.0 + rate, -periodsPerYear) == 1.0
  {
    if periodsPerYear >= 0 then Success(Pow(1.0 + rate, periodsPerYear) - 1.0)
    else if 1.0 + rate == 0.0 then Failure(ZeroDivision)
    else
      NonZeroPow(1.0 + rate, -periodsPerYear);
      Success(1.0 / Pow(1.0 + rate, -periodsPerYear) - 1.0)
  }

  lemma {:induction false} NonZeroPow(b: real, n: nat)
    requires b != 0.0
    ensures Pow(b, n) != 0.0
  {
    if n > 0 {
      NonZeroPow(b, n - 1);
    }
  }

  lemma {:induction false} PowOfOne(n: nat)
    ensures Pow(1.0, n) == 1.0
  {
    if n > 0 {
      PowOfOne(n - 1);
    }
  }

  lemma {:induction false} PowAdd(b: real, m: nat, n: nat)
    ensures Pow(b, m + n) == Pow(b, m) * Pow(b, n)
    decreases m
  {
    if m > 0 {
      PowAdd(b, m - 1, n);
      assert Pow(b, m + n) == b * Pow(b, m - 1 + n);
    }
  }

  /** A zero rate annualises to zero for any number of periods; one period is
      the rate itself; zero periods give zero; the default is 365 periods. */
  lemma AnnualizeBasics(rate: real, periods: nat)
    ensures AnnualizeFunding(0.0, periods) == Success(0.0)
    ensures AnnualizeFunding(rate, 1) == Success(rate)
    ensures AnnualizeFunding(rate, 0) == Success(0.0)
    ensures AnnualizeFunding(rate) == AnnualizeFunding(rate, 365)
  {
    PowOfOne(periods);
    assert Pow(1.0 + rate, 1) == (1.0 + rate) * Pow(1.0 + rate, 0);
  }

  /** Compounding: growth over m + n periods is growth over m periods times
      growth over n periods. */
  lemma Compounding(rate: real, m: nat, n: nat)
    ensures AnnualizeFunding(rate, m + n).value + 1.0
         == (AnnualizeFunding(rate, m).value + 1.0) * (AnnualizeFunding(rate, n).value + 1.0)
  {
    PowAdd(1.0 + rate, m, n);
  }

  /** Bernoulli's inequality: for a rate of at least -100 % the annualised
      figure is at least the simple (non-compounded) sum of the rates. */
  lemma {:induction false} CompoundAtLeastSimple(rate: real, n: nat)
    requires rate >= -1.0
    ensures AnnualizeFunding(rate, n).value >= n as real * rate
  {
    if n > 0 {
      CompoundAtLeastSimple(rate, n - 1);
      var p := Pow(1.0 + rate, n - 1);
      assert p >= 1.0 + (n - 1) as real * rate;
      assert (1.0 + rate) * p >= (1.0 + rate) * (1.0 + (n - 1) as real * rate);
      assert (1.0 + rate) * (1.0 + (n - 1) as real * rate) == 1.0 + n as real * rate + (n - 1) as real * rate * rate;
      assert (n - 1) as real * rate * rate >= 0.0;
    }
  }
}

=== FILE: data_loader.dfy ===
/** The request log of research/scripts/data_loader.py. */
module DataLoader {
  import opened Wrappers

  /** `additional_params` maps names to rendered values. */
  datatype DataRequestSpec = DataRequestSpec(
    symbol: string,
    market: string,
    securityType: string,
    resolution: string,
    start: string,
    end: string,
    fillForward: bool,
    normalizationMode: string,
    extendedHours: bool,
    additionalParams: Option<map<string, string>>)

  /** The dataclass constructor with its defaults. */
  function NewDataRequestSpec(symbol: string, market: string, securityType: string, resolution: string,
                              start: string, end: string,
                              fillForward: bool := true, normalizationMode: string := "Adjusted",
                              extendedHours: bool := false,
                              additionalParams: Option<map<string, string>> := None): DataRequestSpec {
    DataRequestSpec(symbol, market, securityType, resolution, start, end,
                    fillForward, normalizationMode, extendedHours, additionalParams)
  }

  datatype Loader = Loader(requests: seq<DataRequestSpec>)

  function NewLoader(): (l: Loader)
    ensures ListRequests(l) == []
  {
    Loader([])
  }

  /** `register`: the spec goes last; earlier entries are kept. */
  function Register(l: Loader, spec: DataRequestSpec): (l': Loader)
    ensures |ListRequests(l')| == |ListRequests(l)| + 1
    ensures ListRequests(l')[..|ListRequests(l)|] == ListRequests(l)
    ensures ListRequests(l')[|ListRequests(l)|] == spec
  {
    Loader(l.requests + [spec])
  }

  /** `list_requests`: a copy of every registered spec, oldest first. */
  function ListRequests(l: Loader): (r: seq<DataRequestSpec>)
    ensures |r| == |l.requests|
    ensures forall i :: 0 <= i < |r| ==> r[i] == l.requests[i]
  {
    l.requests
  }

  function RegisterAll(l: Loader, specs: seq<DataRequestSpec>): Loader
    decreases |specs|
  {
    if |specs| == 0 then l else RegisterAll(Register(l, specs[0]), specs[1..])
  }

  /** Registering specs one by one lists them after the earlier ones, in
      registration order. */
  lemma {:induction false} ListsInRegistrationOrder(l: Loader, specs: seq<DataRequestSpec>)
    ensures ListRequests(RegisterAll(l, specs)) == ListRequests(l) + specs
    decreases |specs|
  {
    if |specs| > 0 {
      ListsInRegistrationOrder(Register(l, specs[0]), specs[1..]);
      assert ListRequests(l) + [specs[0]] + specs[1..] == ListRequests(l) + specs;
    }
  }

  /** The defaults of `DataRequestSpec`. */
  lemma SpecDefaults(symbol: string, market: string, securityType: string, resolution: string, start: string, end: string)
    ensures var s := NewDataRequestSpec(symbol, market, securityType, resolution, start, end);
      s.fillForward && s.normalizationMode == "Adjusted" && !s.extendedHours && s.additionalParams.None?
  {
  }
}

=== FILE: dicts.dfy ===
/** Python dictionaries whose iteration order is observable, modelled as
    sequences of (key, value) pairs in insertion order. */
module Dicts {
  import opened Wrappers

  type Dict<K, V> = seq<(K, V)>

  /** The keys in iteration order. */
  function Keys<K, V>(d: Dict<K, V>): (ks: seq<K>)
    ensures |ks| == |d|
    ensures forall i :: 0 <= i < |d| ==> ks[i] == d[i].0
  {
    if |d| == 0 then [] else [d[0].0] + Keys(d[1..])
  }

  /** A well-formed dictionary: no key occurs twice. */
  predicate DistinctKeys<K(==), V>(d: Dict<K, V>) {
    forall i, j :: 0 <= i < j < |d| ==> d[i].0 != d[j].0
  }

  /** `d.get(k)`: the value stored under `k`, or `None`. */
  function Get<K(==), V(==)>(d: Dict<K, V>, k: K): (r: Option<V>)
    ensures r.None? <==> forall i :: 0 <= i < |d| ==> d[i].0 != k
    ensures r.Some? ==> exists i :: 0 <= i < |d| && d[i] == (k, r.value)
  {
    if |d| == 0 then None
    else if d[0].0 == k then Some(d[0].1)
    else
      var r := Get(d[1..], k);
      assert r.Some? ==> d[1..][0..] == d[1..];
      r
  }

  /** `d.get(k, default)`. */
  function GetOr<K(==), V(==)>(d: Dict<K, V>, k: K, default: V): V {
    Get(d, k).GetOr(default)
  }

  /** In a well-formed dictionary, the entry at position `i` is what `Get` finds. */
  lemma {:induction false} GetAt<K, V>(d: Dict<K, V>, i: nat)
    requires DistinctKeys(d)
    requires i < |d|
    ensures Get(d, d[i].0) == Some(d[i].1)
  {
    if i > 0 {
      assert d[0].0 != d[i].0;
      assert d[1..][i - 1] == d[i];
      GetAt(d[1..], i - 1);
    }
  }
}

=== FILE: execution.dfy ===
/** Execution planners of research/scripts/execution.py. */
module Execution {
  import opened Wrappers
  import opened Dicts

  /** A planned child order; `price == None` means a market order. */
  datatype ChildOrder = ChildOrder(symbol: string, quantity: real, price: Option<real>, orderType: string, eta: string)

  /** The base `ExecutionPlanner` and the `ImmediatePlanner` that overrides it. */
  datatype Planner = BasePlanner | ImmediatePlanner

  datatype PlanError = NotImplemented

  /** `context.get("timestamp", "T+0")`. */
  function Eta(context: Dict<string, string>): string {
    GetOr(context, "timestamp", "T+0")
  }

  /** `ImmediatePlanner.plan`: one market order per target, in target order,
      zero weights included, each carrying the target's symbol and quantity. */
  function ImmediatePlan(targets: Dict<string, real>, context: Dict<string, string>): (r: seq<ChildOrder>)
    ensures |r| == |targets|
    ensures forall i :: 0 <= i < |r| ==> r[i].symbol == targets[i].0 && r[i].quantity == targets[i].1
    ensures forall i :: 0 <= i < |r| ==> r[i].price.None? && r[i].orderType == "MARKET"
    ensures forall i :: 0 <= i < |r| ==> r[i].eta == Eta(context)
  {
    if |targets| == 0 then []
    else
      [ChildOrder(targets[0].0, targets[0].1, None, "MARKET", Eta(context))]
      + ImmediatePlan(targets[1..], context)
  }

  /** `plan`, dispatched on the planner: the base class raises
      `NotImplementedError`. */
  function Plan(p: Planner, targets: Dict<string, real>, context: Dict<string, string>): (r: Result<seq<ChildOrder>, PlanError>)
    ensures r.Failure? <==> p.BasePlanner?
    ensures r.Success? ==> r.value == ImmediatePlan(targets, context)
  {
    match p
    case BasePlanner => Failure(NotImplemented)
    case ImmediatePlanner => Success(ImmediatePlan(targets, context))
  }

  /** Planning two target maps back to back is planning their concatenation:
      each order depends only on its own target. */
  lemma {:induction false} PlanSplits(t1: Dict<string, real>, t2: Dict<string, real>, context: Dict<string, string>)
    ensures ImmediatePlan(t1 + t2, context) == ImmediatePlan(t1, context) + ImmediatePlan(t2, context)
    decreases |t1|
  {
    if |t1| > 0 {
      assert (t1 + t2)[1..] == t1[1..] + t2;
      PlanSplits(t1[1..], t2, context);
    }
  }

  /** Without a "timestamp" entry the eta is "T+0"; empty targets plan nothing. */
  lemma PlanExamples()
    ensures ImmediatePlan([("BTCUSD", 0.0)], []) == [ChildOrder("BTCUSD", 0.0, None, "MARKET", "T+0")]
    ensures ImmediatePlan([("BTCUSD", 0.95)], [("timestamp", "2024-01-01T00:05:00")])
        == [ChildOrder("BTCUSD", 0.95, None, "MARKET", "2024-01-01T00:05:00")]
    ensures ImmediatePlan([], [("timestamp", "now")]) == []
  {
  }
}

=== FILE: feature_store.dfy ===
/** The feature registry of research/scripts/feature_store.py. The builder
    callables are values of an arbitrary type `B`; their behaviour is not
    part of the model. */
module FeatureStore {
  import opened Wrappers

  /** `params` maps names to rendered values. */
  datatype FeatureSpec = FeatureSpec(
    name: string,
    inputs: seq<string>,
    window: int,
    description: string,
    version: string,
    params: Option<map<string, string>>)

  /** The dataclass constructor with its defaults for `version` and `params`. */
  function NewFeatureSpec(name: string, inputs: seq<string>, window: int, description: string,
                          version: string := "v0", params: Option<map<string, string>> := None): (s: FeatureSpec)
    ensures s.name == name && s.inputs == inputs && s.window == window && s.description == description
    ensures s.version == version && s.params == params
  {
    FeatureSpec(name, inputs, window, description, version, params)
  }

  /** A spec built without `version` or `params` is version "v0" with no params. */
  lemma SpecDefaults(name: string, inputs: seq<string>, window: int, description: string)
    ensures NewFeatureSpec(name, inputs, window, description).version == "v0"
    ensures NewFeatureSpec(name, inputs, window, description).params.None?
  {
  }

  datatype Registry<B> = Registry(specs: map<string, FeatureSpec>, builders: map<string, B>)

  /** Python's `KeyError` on a name never registered. */
  datatype LookupError = KeyError(name: string)

  /** The registry's two tables always share their key set, and each spec is
      stored under its own name. */
  predicate Valid<B>(r: Registry<B>) {
    && r.specs.Keys == r.builders.Keys
    && forall n :: n in r.specs ==> r.specs[n].name == n
  }

  function NewRegistry<B>(): (r: Registry<B>)
    ensures Valid(r)
    ensures forall n :: Describe(r, n) == Failure(KeyError(n))
  {
    Registry(map[], map[])
  }

  /** `describe`. */
  function Describe<B>(r: Registry<B>, name: string): (d: Result<FeatureSpec, LookupError>)
    ensures d.Failure? <==> name !in r.specs
    ensures d.Failure? ==> d.error == KeyError(name)
    ensures d.Success? ==> name in r.specs && d.value == r.specs[name]
  {
    if name in r.specs then Success(r.specs[name]) else Failure(KeyError(name))
  }

  /** `builder`. */
  function Builder<B>(r: Registry<B>, name: string): (b: Result<B, LookupError>)
    ensures b.Failure? <==> name !in r.builders
    ensures b.Failure? ==> b.error == KeyError(name)
    ensures b.Success? ==> name in r.builders && b.value == r.builders[name]
  {
    if name in r.builders then Success(r.builders[name]) else Failure(KeyError(name))
  }

  /** `register`: afterwards the name describes to this spec and this builder,
      whatever was registered under it before; every other name is looked up
      exactly as before; the registry stays valid. */
  function Register<B>(r: Registry<B>, spec: FeatureSpec, builder: B): (r': Registry<B>)
    ensures Describe(r', spec.name) == Success(spec)
    ensures Builder(r', spec.name) == Success(builder)
    ensures forall n :: n != spec.name ==> Describe(r', n) == Describe(r, n) && Builder(r', n) == Builder(r, n)
    ensures Valid(r) ==> Valid(r')
  {
    Registry(r.specs[spec.name := spec], r.builders[spec.name := builder])
  }

  /** In a valid registry a name describes successfully exactly when it has a
      builder, so the two lookups fail together. */
  lemma LookupsAgree<B>(r: Registry<B>, name: string)
    requires Valid(r)
    ensures Describe(r, name).Success? <==> Builder(r, name).Success?
    ensures Describe(r, name).Success? ==> Describe(r, name).value.name == name
  {
  }

  /** Registering the same name twice keeps only the second spec and builder. */
  lemma ReRegisterOverwrites<B>(r: Registry<B>, s1: FeatureSpec, b1: B, s2: FeatureSpec, b2: B)
    requires s1.name == s2.name
    ensures Register(Register(r, s1, b1), s2, b2) == Register(r, s2, b2)
  {
  }
}

=== FILE: monitoring.dfy ===
/** Threshold alerts of research/scripts/monitoring.py. */
module Monitoring {
  import opened Dicts

  datatype MetricSnapshot = MetricSnapshot(timestamp: string, metrics: Dict<string, real>)

  /** `check_thresholds`: one flag per threshold, in threshold order, raised
      when the metric (0.0 when missing) strictly exceeds the limit. */
  function CheckThresholds(snapshot: MetricSnapshot, thresholds: Dict<string, real>): (r: Dict<string, bool>)
    ensures Keys(r) == Keys(thresholds)
    ensures forall i :: 0 <= i < |r| ==>
      (r[i].1 <==> GetOr(snapshot.metrics, thresholds[i].0, 0.0) > thresholds[i].1)
  {
    if |thresholds| == 0 then []
    else
      var (name, limit) := thresholds[0];
      [(name, GetOr(snapshot.metrics, name, 0.0) > limit)] + CheckThresholds(snapshot, thresholds[1..])
  }

  /** Looked up by name, the result has a flag exactly for the names that
      have a threshold, a metric without a threshold is absent, and a
      well-formed threshold map gives a well-formed result. */
  lemma FlagsFollowThresholds(snapshot: MetricSnapshot, thresholds: Dict<string, real>, name: string)
    ensures Get(CheckThresholds(snapshot, thresholds), name).None? <==> Get(thresholds, name).None?
    ensures DistinctKeys(thresholds) ==> DistinctKeys(CheckThresholds(snapshot, thresholds))
  {
    var r := CheckThresholds(snapshot, thresholds);
    assert forall i :: 0 <= i < |r| ==> r[i].0 == Keys(r)[i] == Keys(thresholds)[i] == thresholds[i].0;
  }

  /** Concrete cases: the comparison is strict and missing metrics read 0.0. */
  lemma ThresholdExamples()
    ensures CheckThresholds(MetricSnapshot("t", [("dd", 0.1)]), [("dd", 0.1)]) == [("dd", false)]
    ensures CheckThresholds(MetricSnapshot("t", [("dd", 0.2)]), [("dd", 0.1), ("lag", -1.0)]) == [("dd", true), ("lag", true)]
    ensures CheckThresholds(MetricSnapshot("t", [("dd", 0.2)]), []) == []
  {
  }
}

=== FILE: portfolio.dfy ===
/** The fixed-fraction allocator of research/scripts/portfolio.py. */
module Portfolio {
  import opened Dicts

  datatype AllocationResult = AllocationResult(weights: Dict<string, real>, notes: string)

  datatype FixedFractionAllocator = FixedFractionAllocator(fraction: real)

  function NewFixedFractionAllocator(fraction: real := 0.95): (a: FixedFractionAllocator)
    ensures a.fraction == fraction
  {
    FixedFractionAllocator(fraction)
  }

  /** Without an explicit fraction the allocator sizes at 0.95. */
  lemma AllocatorDefaults()
    ensures NewFixedFractionAllocator().fraction == 0.95
  {
  }

  /** Python's `max(items, key=score)`: it keeps the running best and replaces
      it only on a strictly larger score, so the first maximal entry in
      iteration order wins. */
  function FirstMax(d: Dict<string, real>): (i: nat)
    requires |d| > 0
    ensures i < |d|
    ensures forall j :: 0 <= j < |d| ==> d[j].1 <= d[i].1
    ensures forall j :: 0 <= j < i ==> d[j].1 < d[i].1
  {
    if |d| == 1 then 0
    else
      var k := FirstMax(d[..|d| - 1]);
      assert forall j :: 0 <= j < |d| - 1 ==> d[..|d| - 1][j] == d[j];
      if d[|d| - 1].1 > d[k].1 then |d| - 1 else k
  }

  const PlaceholderNote := "Fixed fraction placeholder"

  /** `compute`: no scores give no weights; otherwise exactly one weight, on
      the first best-scoring symbol, worth the fraction when that score is
      positive and 0.0 (still present) when it is not. */
  function Compute(a: FixedFractionAllocator, scores: Dict<string, real>, context: Dict<string, real>): (r: AllocationResult)
    ensures |scores| == 0 ==> r.weights == [] && r.notes == ""
    ensures |scores| > 0 ==> |r.weights| == 1 && r.notes == PlaceholderNote
    ensures |scores| > 0 ==>
      exists i :: 0 <= i < |scores|
        && (forall j :: 0 <= j < |scores| ==> scores[j].1 <= scores[i].1)
        && (forall j :: 0 <= j < i ==> scores[j].1 < scores[i].1)
        && r.weights[0].0 == scores[i].0
        && r.weights[0].1 == (if scores[i].1 > 0.0 then a.fraction else 0.0)
  {
    if |scores| == 0 then AllocationResult([], "")
    else
      var i := FirstMax(scores);
      var (symbol, score) := scores[i];
      AllocationResult([(symbol, if score > 0.0 then a.fraction else 0.0)], PlaceholderNote)
  }

  /** The weight is the fraction exactly when some score is positive. */
  lemma WeightIsFractionIffPositive(a: FixedFractionAllocator, scores: Dict<string, real>, context: Dict<string, real>)
    requires |scores| > 0
    requires a.fraction != 0.0
    ensures Compute(a, scores, context).weights[0].1 == a.fraction
        <==> exists j :: 0 <= j < |scores| && scores[j].1 > 0.0
  {
    var r := Compute(a, scores, context);
    var i :| 0 <= i < |scores|
        && (forall j :: 0 <= j < |scores| ==> scores[j].1 <= scores[i].1)
        && r.weights[0].1 == (if scores[i].1 > 0.0 then a.fraction else 0.0);
    if exists j :: 0 <= j < |scores| && scores[j].1 > 0.0 {
      var j :| 0 <= j < |scores| && scores[j].1 > 0.0;
      assert scores[j].1 <= scores[i].1;
    }
  }

  /** The context does not influence the allocation. */
  lemma ContextIgnored(a: FixedFractionAllocator, scores: Dict<string, real>, c1: Dict<string, real>, c2: Dict<string, real>)
    ensures Compute(a, scores, c1) == Compute(a, scores, c2)
  {
  }

  /** Concrete cases: a zero score still yields a one-entry map worth 0.0, a
      positive score yields the fraction, and on a tie the first symbol wins. */
  lemma AllocationExamples()
    ensures Compute(NewFixedFractionAllocator(), [], []) == AllocationResult([], "")
    ensures Compute(NewFixedFractionAllocator(), [("X", 0.0)], []).weights == [("X", 0.0)]
    ensures Compute(NewFixedFractionAllocator(), [("X", 1.0)], []).weights == [("X", 0.95)]
    ensures Compute(NewFixedFractionAllocator(), [("A", 1.0), ("B", 1.0)], []).weights == [("A", 0.95)]
  {
  }
}

=== FILE: position.dfy ===
/** `PositionState` and the trailing-stop `TrailingStopGuard` of main.py.
    The string-or-None `side` becomes a variant that carries the entry and
    stop prices only while a position is open. */
module Position {
  import opened Wrappers
  import opened Dicts
  import Risk

  datatype Side = Flat | Long(entry: real, stop: real)

  /** The `entry_price` field of `PositionState` (0.0 while flat). */
  function EntryPrice(s: Side): real {
    if s.Long? then s.entry else 0.0
  }

  /** The `stop_price` field of `PositionState` (0.0 while flat). */
  function StopPrice(s: Side): real {
    if s.Long? then s.stop else 0.0
  }

  /** The guard's configuration; the state it mutates in place is passed
      alongside as a `Side`. */
  datatype Guard = Guard(stopLossPct: real)

  /** The stop that trails `price` by the guard's percentage. */
  function Trail(g: Guard, price: real): real {
    price * (1.0 - g.stopLossPct)
  }

  /** `register_entry`: open a long at `price` with the initial stop below it. */
  function RegisterEntry(g: Guard, s: Side, price: real): (r: Side)
    ensures r.Long? && r.entry == price && r.stop == Trail(g, price)
    ensures 0.0 <= g.stopLossPct <= 1.0 && price >= 0.0 ==> 0.0 <= r.stop <= r.entry
  {
    TrailBounds(g, price);
    Long(price, Trail(g, price))
  }

  lemma TrailBounds(g: Guard, price: real)
    ensures 0.0 <= g.stopLossPct <= 1.0 && price >= 0.0 ==> 0.0 <= Trail(g, price) <= price
  {
    if 0.0 <= g.stopLossPct <= 1.0 && price >= 0.0 {
      assert price * g.stopLossPct >= 0.0;
      assert price * (1.0 - g.stopLossPct) >= 0.0;
    }
  }

  /** `update_trailing`: while long, ratchet the stop up to the trailing
      candidate; never lower it; leave a flat state alone. */
  function UpdateTrailing(g: Guard, s: Side, price: real): (r: Side)
    ensures s.Flat? ==> r == s
    ensures s.Long? ==> r.Long? && r.entry == s.entry
    ensures s.Long? ==> r.stop >= s.stop && r.stop >= Trail(g, price)
    ensures s.Long? ==> r.stop == s.stop || r.stop == Trail(g, price)
  {
    match s
    case Flat => s
    case Long(entry, stop) =>
      var trailing := Trail(g, price);
      Long(entry, if stop >= trailing then stop else trailing)
  }

  /** `should_exit`: long and the price is at or below the stop. */
  function ShouldExit(s: Side, price: real): (r: bool)
    ensures r <==> s.Long? && price <= StopPrice(s)
    ensures s.Flat? ==> !r
  {
    s.Long? && price <= s.stop
  }

  /** `reset`: back to flat with both prices cleared. */
  function Reset(s: Side): (r: Side)
    ensures r.Flat? && EntryPrice(r) == 0.0 && StopPrice(r) == 0.0
  {
    Flat
  }

  /** `evaluate`: update the stop when the context holds a "price", then hand
      the targets to the base guard, which returns them unchanged. */
  function Evaluate(g: Guard, s: Side, targets: Dict<string, real>, context: Dict<string, real>): (r: (Side, Dict<string, real>))
    ensures r.1 == targets
    ensures Get(context, "price").None? ==> r.0 == s
    ensures Get(context, "price").Some? ==> r.0 == UpdateTrailing(g, s, Get(context, "price").value)
  {
    var s' := match Get(context, "price")
      case Some(price) => UpdateTrailing(g, s, price)
      case None => s;
    (s', Risk.Evaluate(Risk.BaseGuard, targets, context))
  }

  /** The stop of an open position never sits below the initial stop of its entry. */
  predicate StopFloor(g: Guard, s: Side) {
    s.Long? ==> s.stop >= Trail(g, s.entry)
  }

  /** Every operation of the guard keeps the stop floor. */
  lemma StopFloorKept(g: Guard, s: Side, price: real)
    requires StopFloor(g, s)
    ensures StopFloor(g, RegisterEntry(g, s, price))
    ensures StopFloor(g, UpdateTrailing(g, s, price))
    ensures StopFloor(g, Reset(s))
  {
  }

  /** A run of trailing updates on successive prices. */
  function UpdateAll(g: Guard, s: Side, prices: seq<real>): Side
    decreases |prices|
  {
    if |prices| == 0 then s else UpdateAll(g, UpdateTrailing(g, s, prices[0]), prices[1..])
  }

  /** After a run of updates the position is still the same long, its stop has
      not moved down, it is at or above every price's trailing candidate, and
      it is either the starting stop or one of those candidates: the running
      maximum. */
  lemma {:induction false} RatchetIsRunningMax(g: Guard, s: Side, prices: seq<real>)
    requires s.Long?
    ensures UpdateAll(g, s, prices).Long?
    ensures UpdateAll(g, s, prices).entry == s.entry
    ensures UpdateAll(g, s, prices).stop >= s.stop
    ensures forall k :: 0 <= k < |prices| ==> UpdateAll(g, s, prices).stop >= Trail(g, prices[k])
    ensures UpdateAll(g, s, prices).stop == s.stop
        || exists k :: 0 <= k < |prices| && UpdateAll(g, s, prices).stop == Trail(g, prices[k])
    decreases |prices|
  {
    if |prices| > 0 {
      var s1 := UpdateTrailing(g, s, prices[0]);
      RatchetIsRunningMax(g, s1, prices[1..]);
      var r := UpdateAll(g, s, prices);
      assert r == UpdateAll(g, s1, prices[1..]);
      forall k | 0 <= k < |prices|
        ensures r.stop >= Trail(g, prices[k])
      {
        if k > 0 {
          assert prices[k] == prices[1..][k - 1];
        }
      }
      if r.stop != s.stop {
        if r.stop == s1.stop {
          assert r.stop == Trail(g, prices[0]);
        } else {
          var k :| 0 <= k < |prices[1..]| && r.stop == Trail(g, prices[1..][k]);
          assert prices[1..][k] == prices[k + 1];
        }
      }
    }
  }

  /** A flat state is untouched by any run of updates. */
  lemma {:induction false} FlatStaysFlat(g: Guard, prices: seq<real>)
    ensures UpdateAll(g, Flat, prices) == Flat
    decreases |prices|
  {
    if |prices| > 0 {
      FlatStaysFlat(g, prices[1..]);
    }
  }

  /** For a positive price and stop percentage, the bar that ratchets the stop
      can only trigger an exit if it is at or below the stop held before it. */
  lemma ExitOnlyBelowPreviousStop(g: Guard, s: Side, price: real)
    requires s.Long?
    requires 0.0 < g.stopLossPct
    requires price > 0.0
    ensures ShouldExit(UpdateTrailing(g, s, price), price) <==> price <= s.stop
  {
    assert Trail(g, price) < price;
  }

  /** Entry at 100 with a 3 % stop gives a stop of 97; a bar at 110 lifts it to
      106.7; a bar at 108 neither exits nor moves it; a bar at 106 exits. */
  lemma TrailingScenario()
    ensures RegisterEntry(Guard(0.03), Flat, 100.0) == Long(100.0, 97.0)
    ensures UpdateTrailing(Guard(0.03), Long(100.0, 97.0), 110.0) == Long(100.0, 106.7)
    ensures UpdateTrailing(Guard(0.03), Long(100.0, 106.7), 108.0) == Long(100.0, 106.7)
    ensures !ShouldExit(Long(100.0, 106.7), 108.0)
    ensures ShouldExit(Long(100.0, 106.7), 106.0)
  {
  }
}

=== FILE: reporting.dfy ===
/** Post-trade summary of research/scripts/reporting.py. */
module Reporting {
  import opened Wrappers

  datatype TradeRecord = TradeRecord(symbol: string, quantity: real, fillPrice: real, timestamp: string, fees: real)

  /** The `{"pnl": ..., "avg_fill": ...}` dictionary. */
  datatype Summary = Summary(pnl: real, avgFill: real)

  /** `gross / sum(quantities)` with a zero sum raises. */
  datatype SummaryError = ZeroDivision

  /** `sum(t.quantity * t.fill_price for t in trades)`. */
  function Gross(trades: seq<TradeRecord>): real {
    if |trades| == 0 then 0.0 else trades[0].quantity * trades[0].fillPrice + Gross(trades[1..])
  }

  /** `sum(t.quantity for t in trades)`. */
  function TotalQuantity(trades: seq<TradeRecord>): real {
    if |trades| == 0 then 0.0 else trades[0].quantity + TotalQuantity(trades[1..])
  }

  /** `summarize_trades`: zeros for no trades; otherwise the gross and the
      volume-weighted average fill, failing when the quantities cancel out. */
  function SummarizeTrades(trades: seq<TradeRecord>): (r: Result<Summary, SummaryError>)
    ensures |trades| == 0 ==> r == Success(Summary(0.0, 0.0))
    ensures |trades| > 0 ==> (r.Failure? <==> TotalQuantity(trades) == 0.0)
    ensures |trades| > 0 && r.Success? ==> r.value.pnl == Gross(trades)
    ensures |trades| > 0 && r.Success? ==> r.value.avgFill * TotalQuantity(trades) == Gross(trades)
  {
    if |trades| == 0 then Success(Summary(0.0, 0.0))
    else
      var gross := Gross(trades);
      var qty := TotalQuantity(trades);
      if qty == 0.0 then Failure(ZeroDivision) else Success(Summary(gross, gross / qty))
  }

  /** Two trade lists that differ only in their fees. */
  predicate SameExceptFees(a: seq<TradeRecord>, b: seq<TradeRecord>) {
    && |a| == |b|
    && forall i :: 0 <= i < |a| ==> a[i].(fees := b[i].fees) == b[i]
  }

  /** Fees play no part in the summary. */
  lemma {:induction false} FeesIgnored(a: seq<TradeRecord>, b: seq<TradeRecord>)
    requires SameExceptFees(a, b)
    ensures SummarizeTrades(a) == SummarizeTrades(b)
  {
    SumsIgnoreFees(a, b);
  }

  lemma {:induction false} SumsIgnoreFees(a: seq<TradeRecord>, b: seq<TradeRecord>)
    requires SameExceptFees(a, b)
    ensures Gross(a) == Gross(b) && TotalQuantity(a) == TotalQuantity(b)
    decreases |a|
  {
    if |a| > 0 {
      assert a[0].(fees := b[0].fees) == b[0];
      assert SameExceptFees(a[1..], b[1..]) by {
        forall i | 0 <= i < |a| - 1
          ensures a[1..][i].(fees := b[1..][i].fees) == b[1..][i]
        {
          assert a[1..][i] == a[i + 1] && b[1..][i] == b[i + 1];
        }
      }
      SumsIgnoreFees(a[1..], b[1..]);
    }
  }

  /** Both sums split over concatenation, so summaries of two batches combine. */
  lemma {:induction false} SumsSplit(a: seq<TradeRecord>, b: seq<TradeRecord>)
    ensures Gross(a + b) == Gross(a) + Gross(b)
    ensures TotalQuantity(a + b) == TotalQuantity(a) + TotalQuantity(b)
    decreases |a|
  {
    if |a| > 0 {
      assert (a + b)[0] == a[0];
      assert (a + b)[1..] == a[1..] + b;
      SumsSplit(a[1..], b);
    } else {
      assert a + b == b;
    }
  }
}

=== FILE: risk.dfy ===
/** Risk overlays of research/scripts/risk.py. */
module Risk {
  import opened Wrappers
  import opened Dicts

  /** Exposure, P&L and breaker status. */
  datatype RiskState = RiskState(pnl: real, exposure: Option<Dict<string, real>>, breakersTriggered: bool)

  function NewRiskState(): RiskState {
    RiskState(0.0, None, false)
  }

  /** The closed set of guards of this file: the base `RiskGuard` and the
      stub `TrailingStopGuard(stop_pct)`. */
  datatype RiskGuard = BaseGuard | TrailingStopStub(stopPct: real)

  function NewTrailingStopStub(stopPct: real := 0.03): RiskGuard {
    TrailingStopStub(stopPct)
  }

  /** `evaluate`: the base guard hands its targets back untouched, and the
      stub delegates to the base. */
  function Evaluate(g: RiskGuard, targets: Dict<string, real>, context: Dict<string, real>): (r: Dict<string, real>)
    ensures r == targets
    decreases if g.BaseGuard? then 0 else 1
  {
    match g
    case BaseGuard => targets
    case TrailingStopStub(_) => Evaluate(BaseGuard, targets, context)
  }

  /** A fresh risk state carries no P&L, no exposure and no tripped breaker. */
  lemma FreshRiskState()
    ensures NewRiskState().pnl == 0.0
    ensures NewRiskState().exposure.None?
    ensures !NewRiskState().breakersTriggered
  {
  }

  /** The stub guard defaults to a 3 % stop and behaves as the base guard. */
  lemma StubIsBase(targets: Dict<string, real>, context: Dict<string, real>)
    ensures NewTrailingStopStub() == TrailingStopStub(0.03)
    ensures Evaluate(NewTrailingStopStub(), targets, context) == Evaluate(BaseGuard, targets, context)
  {
  }
}

=== FILE: signal.dfy ===
/** `RandomLongSignal` of main.py: a seeded coin flip scored as (edge, confidence). */
module Signal {
  import opened Dicts

  datatype Score = Score(edge: real, confidence: real)

  /** The generator `random.Random(seed)` is represented by the stream of
      draws in [0, 1) it produces; `draws(k)` is the k-th call of `random()`. */
  datatype RandomLongSignal = RandomLongSignal(probability: real, draws: nat -> real)

  function NewRandomLongSignal(draws: nat -> real, probability: real := 0.3): (g: RandomLongSignal)
    ensures g.probability == probability && g.draws == draws
  {
    RandomLongSignal(probability, draws)
  }

  /** Without an explicit probability a signal fires with probability 0.3. */
  lemma SignalDefaults(draws: nat -> real)
    ensures NewRandomLongSignal(draws).probability == 0.3
  {
  }

  /** The scoring rule applied to one draw. */
  function ScoreDraw(probability: real, draw: real): (s: Score)
    ensures s.edge == 1.0 <==> draw < probability
    ensures s.edge == 0.0 <==> !(draw < probability)
    ensures s.confidence == 0.5 <==> s.edge > 0.0
    ensures s.confidence == 0.0 <==> s.edge <= 0.0
  {
    var edge := if draw < probability then 1.0 else 0.0;
    Score(edge, if edge > 0.0 then 0.5 else 0.0)
  }

  /** `score(features)` as the `used`-th call on the generator; the features
      are ignored. Returns the score and the number of draws consumed so far. */
  function ScoreNext(g: RandomLongSignal, used: nat, features: Dict<string, real>): (r: (Score, nat))
    ensures r.1 == used + 1
    ensures r.0.edge == 1.0 <==> g.draws(used) < g.probability
    ensures r.0.confidence == 0.5 <==> r.0.edge > 0.0
    ensures r.0 == ScoreDraw(g.probability, g.draws(used))
  {
    (ScoreDraw(g.probability, g.draws(used)), used + 1)
  }

  /** The score depends only on the draw stream and the probability, never on
      the features passed in. (Same-seed determinism itself holds by
      construction: a seed is represented by its draw stream.) */
  lemma FeaturesIgnored(draws: nat -> real, p: real, used: nat, f1: Dict<string, real>, f2: Dict<string, real>)
    ensures ScoreNext(NewRandomLongSignal(draws, p), used, f1) == ScoreNext(NewRandomLongSignal(draws, p), used, f2)
  {
  }
}

=== FILE: strategy.dfy ===
/** The per-bar strategy loop of main.py (`SleepySkyBlueAlligator`): warm-up
    and data gates, trailing-stop exit, single-position and cooldown gates,
    the signal / allocator / guard / planner pipeline, and order routing with
    its trade counters. The host (warm-up flag, bar, clock, cash) is an input
    to each step; its order calls are returned as effects. */
module Strategy {
  import opened Wrappers
  import opened Position
  import Signal
  import Portfolio
  import Execution

  /** What `Initialize` fixes. Times are whole seconds. */
  datatype Config = Config(
    symbol: string,
    startTime: int,
    stopLossPct: real,
    minTradeInterval: int,
    signal: Signal.RandomLongSignal,
    fraction: real)

  /** The constants of `Initialize`: a 3 % stop, a five-minute cooldown, a
      signal firing with probability 0.3, and a 0.95 allocation. */
  function DefaultConfig(symbol: string, startTime: int, draws: nat -> real): Config {
    Config(symbol, startTime, 0.03, 5 * 60, Signal.NewRandomLongSignal(draws, 0.3), 0.95)
  }

  /** The mutable state of the algorithm; `drawsUsed` counts the calls made on
      the signal's random generator. */
  datatype Algo = Algo(side: Side, lastTradeTime: int, tradeCount: nat, winningTrades: nat, drawsUsed: nat)

  function Initialize(cfg: Config): Algo {
    Algo(Flat, cfg.startTime, 0, 0, 0)
  }

  /** One call of `OnData` as seen from the host: the warm-up flag, the close
      of the tracked symbol (absent when the slice has no bar for it), the
      clock `Time` and its ISO rendering, and the portfolio's cash. */
  datatype Bar = Bar(warmingUp: bool, close: Option<real>, time: int, timestamp: string, cash: real)

  /** Orders handed to the host. */
  datatype Effect = SetHoldings(symbol: string, fraction: real) | Liquidate(symbol: string, reason: string)

  /** `(price - entry_price) / entry_price` with a zero entry raises. */
  datatype StepError = ZeroEntryPrice

  datatype Outcome = Outcome(algo: Algo, effects: seq<Effect>)

  function GuardOf(cfg: Config): Guard {
    Guard(cfg.stopLossPct)
  }

  /** `_can_trade`: the cooldown since the last entry has elapsed. */
  function CanTrade(cfg: Config, a: Algo, now: int): (r: bool)
    ensures r <==> a.lastTradeTime + cfg.minTradeInterval <= now
  {
    now - a.lastTradeTime >= cfg.minTradeInterval
  }

  /** `_exit_position`: nothing while flat; otherwise count a win when the
      return on the entry is positive, liquidate and reset the guard. */
  function ExitPosition(cfg: Config, a: Algo, price: real, reason: string): (r: Result<Outcome, StepError>)
    ensures a.side.Flat? ==> r == Success(Outcome(a, []))
    ensures a.side.Long? ==> (r.Failure? <==> a.side.entry == 0.0)
    ensures r.Success? && a.side.Long? ==>
      && r.value.algo == a.(side := Flat, winningTrades := r.value.algo.winningTrades)
      && r.value.effects == [Liquidate(cfg.symbol, reason)]
      && (r.value.algo.winningTrades == a.winningTrades + 1 <==> (price - a.side.entry) / a.side.entry > 0.0)
      && (r.value.algo.winningTrades == a.winningTrades <==> !((price - a.side.entry) / a.side.entry > 0.0))
  {
    match a.side
    case Flat => Success(Outcome(a, []))
    case Long(entry, _) =>
      if entry == 0.0 then Failure(ZeroEntryPrice)
      else
        var pnlPct := (price - entry) / entry;
        var wins := if pnlPct > 0.0 then a.winningTrades + 1 else a.winningTrades;
        Success(Outcome(a.(side := Reset(a.side), winningTrades := wins), [Liquidate(cfg.symbol, reason)]))
  }

  /** `_route_orders`: skip orders for other symbols; at the first order for
      the tracked symbol stop, and enter only if there is cash. */
  function RouteOrders(cfg: Config, a: Algo, orders: seq<Execution.ChildOrder>, price: real, now: int, cash: real): (r: Outcome)
    ensures (cash <= 0.0 || forall i :: 0 <= i < |orders| ==> orders[i].symbol != cfg.symbol) ==> r == Outcome(a, [])
    ensures cash > 0.0 && (exists i :: 0 <= i < |orders| && orders[i].symbol == cfg.symbol) ==>
      exists i :: 0 <= i < |orders|
        && orders[i].symbol == cfg.symbol
        && (forall j :: 0 <= j < i ==> orders[j].symbol != cfg.symbol)
        && r == Outcome(
             a.(side := Long(price, Trail(GuardOf(cfg), price)), lastTradeTime := now, tradeCount := a.tradeCount + 1),
             [SetHoldings(cfg.symbol, orders[i].quantity)])
  {
    if |orders| == 0 then Outcome(a, [])
    else if orders[0].symbol != cfg.symbol then
      var r := RouteOrders(cfg, a, orders[1..], price, now, cash);
      assert forall i :: 1 <= i < |orders| ==> orders[1..][i - 1] == orders[i];
      r
    else if cash <= 0.0 then Outcome(a, [])
    else
      Outcome(
        a.(side := RegisterEntry(GuardOf(cfg), a.side, price), lastTradeTime := now, tradeCount := a.tradeCount + 1),
        [SetHoldings(cfg.symbol, orders[0].quantity)])
  }

  /** The tail of `OnData` once the position is flat and the cooldown has
      elapsed: draw a score, allocate, pass the guard, plan, and route. With
      a single positive score the allocator's one target is the tracked
      symbol at the configured fraction, so a position is opened exactly when
      the draw fires and there is cash; either way one draw is consumed. */
  function Enter(cfg: Config, a: Algo, bar: Bar, price: real): (r: Outcome)
    requires a.side.Flat?
    ensures r.algo.winningTrades == a.winningTrades
    ensures r.algo.drawsUsed == a.drawsUsed + 1
    ensures var entered := cfg.signal.draws(a.drawsUsed) < cfg.signal.probability && bar.cash > 0.0;
      && (entered ==> r == Outcome(
            a.(side := Long(price, Trail(GuardOf(cfg), price)), lastTradeTime := bar.time,
               tradeCount := a.tradeCount + 1, drawsUsed := a.drawsUsed + 1),
            [SetHoldings(cfg.symbol, cfg.fraction)]))
      && (!entered ==> r == Outcome(a.(drawsUsed := a.drawsUsed + 1), []))
  {
    var g := GuardOf(cfg);
    var (score, used) := Signal.ScoreNext(cfg.signal, a.drawsUsed, [("close_price", price)]);
    var a2 := a.(drawsUsed := used);
    if score.edge <= 0.0 then Outcome(a2, [])
    else
      var context := [("price", price)];
      var allocation := Portfolio.Compute(Portfolio.FixedFractionAllocator(cfg.fraction), [(cfg.symbol, score.edge)], context);
      var (side3, safe) := Position.Evaluate(g, a2.side, allocation.weights, context);
      var a3 := a2.(side := side3);
      if |safe| == 0 then Outcome(a3, [])
      else
        var orders := Execution.ImmediatePlan(safe, [("timestamp", bar.timestamp)]);
        assert orders[0].symbol == cfg.symbol;
        RouteOrders(cfg, a3, orders, price, bar.time, bar.cash)
  }

  /** `OnData`: ratchet the stop, exit on a hit, otherwise hold an open
      position, and from flat try an entry once the cooldown has elapsed. */
  function OnData(cfg: Config, a: Algo, bar: Bar): (r: Result<Outcome, StepError>)
    ensures bar.warmingUp || bar.close.None? ==> r == Success(Outcome(a, []))
    ensures r.Failure? ==> a.side.Long? && a.side.entry == 0.0
    ensures r.Success? ==> |r.value.effects| <= 1
  {
    if bar.warmingUp || bar.close.None? then Success(Outcome(a, []))
    else
      var price := bar.close.value;
      var a1 := a.(side := UpdateTrailing(GuardOf(cfg), a.side, price));
      if ShouldExit(a1.side, price) then ExitPosition(cfg, a1, price, "Stop loss hit")
      else if a1.side.Long? then Success(Outcome(a1, []))
      else if !CanTrade(cfg, a1, bar.time) then Success(Outcome(a1, []))
      else Success(Enter(cfg, a1, bar, price))
  }

  /** The three transitions of a bar after warm-up. An open position has its
      stop ratcheted first, then exits through `_exit_position` when the
      guard fires, or else stays open with no order. A flat position tries
      an entry when the cooldown has elapsed, and otherwise nothing
      happens. */
  lemma OnDataTransitions(cfg: Config, a: Algo, bar: Bar)
    requires !bar.warmingUp && bar.close.Some?
    ensures a.side.Long? ==>
      var s1 := UpdateTrailing(GuardOf(cfg), a.side, bar.close.value);
      && (ShouldExit(s1, bar.close.value) ==> OnData(cfg, a, bar) == ExitPosition(cfg, a.(side := s1), bar.close.value, "Stop loss hit"))
      && (!ShouldExit(s1, bar.close.value) ==> OnData(cfg, a, bar) == Success(Outcome(a.(side := s1), [])))
    ensures a.side.Flat? ==>
      OnData(cfg, a, bar) == Success(if CanTrade(cfg, a, bar.time) then Enter(cfg, a, bar, bar.close.value) else Outcome(a, []))
  {
  }

  /** The converse of the failure clause of `OnData`: an open position with
      a zero entry fails on any bar that hits its ratcheted stop. */
  lemma ZeroEntryExitFails(cfg: Config, a: Algo, bar: Bar)
    requires !bar.warmingUp && bar.close.Some?
    requires a.side.Long? && a.side.entry == 0.0
    requires bar.close.value <= UpdateTrailing(GuardOf(cfg), a.side, bar.close.value).stop
    ensures OnData(cfg, a, bar) == Failure(ZeroEntryPrice)
  {
  }

  /** A bar on an open position with a non-zero entry: the position closes,
      with one liquidation, exactly when the close is at or below the stop
      after ratcheting; otherwise it stays long with the ratcheted stop and
      no order, and nothing else changes. */
  lemma OnDataLong(cfg: Config, a: Algo, bar: Bar)
    requires !bar.warmingUp && bar.close.Some?
    requires a.side.Long? && a.side.entry != 0.0
    ensures OnData(cfg, a, bar).Success?
    ensures var price := bar.close.value;
      var stop := if a.side.stop >= Trail(GuardOf(cfg), price) then a.side.stop else Trail(GuardOf(cfg), price);
      var o := OnData(cfg, a, bar).value;
      && (o.algo.side.Flat? <==> price <= stop)
      && (price <= stop ==>
            && o.effects == [Liquidate(cfg.symbol, "Stop loss hit")]
            && o.algo.tradeCount == a.tradeCount
            && o.algo.lastTradeTime == a.lastTradeTime)
      && (price > stop ==> o == Outcome(a.(side := Long(a.side.entry, stop)), []))
  {
  }

  /** The win rate reported by `OnEndOfAlgorithm`, in percent. */
  function WinRate(a: Algo): (r: real)
    ensures a.tradeCount == 0 ==> r == 0.0
    ensures a.winningTrades <= a.tradeCount ==> 0.0 <= r <= 100.0
    ensures a.tradeCount > 0 ==> r * a.tradeCount as real == 100.0 * a.winningTrades as real
  {
    if a.tradeCount > 0 then (a.winningTrades as real / a.tradeCount as real) * 100.0 else 0.0
  }

  /** Facts every reachable state satisfies: each win closed a counted entry
      (and an open position is a counted entry not yet closed), and the stop
      of an open position is never below its initial stop. */
  predicate Inv(cfg: Config, a: Algo) {
    && a.winningTrades + (if a.side.Long? then 1 else 0) <= a.tradeCount
    && StopFloor(GuardOf(cfg), a.side)
  }

  /** An entry (a rise of `trade_count`) happens only from a flat position,
      once the cooldown has elapsed, with positive cash and a firing draw; it
      counts exactly one trade, restarts the cooldown at the bar's time and
      opens a long at the bar's close. Without an entry neither the counter
      nor the cooldown clock moves. */
  lemma EntryGates(cfg: Config, a: Algo, bar: Bar)
    requires OnData(cfg, a, bar).Success?
    ensures var b := OnData(cfg, a, bar).value.algo;
      && b.tradeCount <= a.tradeCount + 1
      && (b.tradeCount == a.tradeCount + 1 ==>
            && a.side.Flat?
            && !bar.warmingUp && bar.close.Some?
            && CanTrade(cfg, a, bar.time)
            && bar.cash > 0.0
            && cfg.signal.draws(a.drawsUsed) < cfg.signal.probability
            && b.lastTradeTime == bar.time
            && b.side == RegisterEntry(GuardOf(cfg), Flat, bar.close.value))
      && (b.tradeCount == a.tradeCount ==> b.lastTradeTime == a.lastTradeTime)
  {
  }

  lemma InitialInv(cfg: Config)
    ensures Inv(cfg, Initialize(cfg))
  {
  }

  /** Each successful step keeps the invariant. */
  lemma StepKeepsInv(cfg: Config, a: Algo, bar: Bar)
    requires Inv(cfg, a)
    requires OnData(cfg, a, bar).Success?
    ensures Inv(cfg, OnData(cfg, a, bar).value.algo)
  {
    EntryGates(cfg, a, bar);
    if !bar.warmingUp && bar.close.Some? {
      StopFloorKept(GuardOf(cfg), a.side, bar.close.value);
    }
  }

  /** While the host's closes are positive no step fails: entries are then
      at positive prices and the return on an exit is defined. */
  predicate PositiveEntry(a: Algo) {
    a.side.Long? ==> a.side.entry > 0.0
  }

  lemma PositivePricesNeverFail(cfg: Config, a: Algo, bar: Bar)
    requires PositiveEntry(a)
    requires bar.close.Some? ==> bar.close.value > 0.0
    ensures OnData(cfg, a, bar).Success?
    ensures PositiveEntry(OnData(cfg, a, bar).value.algo)
  {
    EntryGates(cfg, a, bar);
  }

  /** Feeding the host's bars one after another; `entries` records the time
      of every bar on which a position was opened. */
  datatype Trace = Trace(algo: Algo, entries: seq<int>, effects: seq<Effect>)

  function Run(cfg: Config, a: Algo, bars: seq<Bar>): Result<Trace, StepError>
    decreases |bars|
  {
    if |bars| == 0 then Success(Trace(a, [], []))
    else
      var o :- OnData(cfg, a, bars[0]);
      var t :- Run(cfg, o.algo, bars[1..]);
      var entered := if o.algo.tradeCount > a.tradeCount then [bars[0].time] else [];
      Success(Trace(t.algo, entered + t.entries, o.effects + t.effects))
  }

  /** One step of a successful run: the first bar succeeds and the rest of
      the run continues from its state. */
  lemma RunStep(cfg: Config, a: Algo, bars: seq<Bar>)
    requires |bars| > 0
    requires Run(cfg, a, bars).Success?
    ensures OnData(cfg, a, bars[0]).Success?
    ensures var b := OnData(cfg, a, bars[0]).value.algo;
      && Run(cfg, b, bars[1..]).Success?
      && Run(cfg, a, bars).value.algo == Run(cfg, b, bars[1..]).value.algo
      && Run(cfg, a, bars).value.entries
         == (if b.tradeCount > a.tradeCount then [bars[0].time] else []) + Run(cfg, b, bars[1..]).value.entries
  {
  }

  /** Over any run: every entry is counted, the first entry comes at least one
      cooldown after the starting clock, successive entries are at least one
      cooldown apart, the last entry's time is the final cooldown clock, and
      the invariant holds at the end. */
  lemma {:induction false} RunRespectsCooldown(cfg: Config, a: Algo, bars: seq<Bar>)
    requires Inv(cfg, a)
    requires Run(cfg, a, bars).Success?
    ensures var t := Run(cfg, a, bars).value;
      && t.algo.tradeCount == a.tradeCount + |t.entries|
      && (|t.entries| > 0 ==> t.entries[0] - a.lastTradeTime >= cfg.minTradeInterval)
      && (forall i :: 0 <= i < |t.entries| - 1 ==> t.entries[i + 1] - t.entries[i] >= cfg.minTradeInterval)
      && t.algo.lastTradeTime == (if |t.entries| > 0 then t.entries[|t.entries| - 1] else a.lastTradeTime)
      && Inv(cfg, t.algo)
    decreases |bars|
  {
    if |bars| > 0 {
      RunStep(cfg, a, bars);
      var b := OnData(cfg, a, bars[0]).value.algo;
      EntryGates(cfg, a, bars[0]);
      StepKeepsInv(cfg, a, bars[0]);
      RunRespectsCooldown(cfg, b, bars[1..]);
      var rest := Run(cfg, b, bars[1..]).value;
      var t := Run(cfg, a, bars).value;
      if b.tradeCount > a.tradeCount {
        assert t.entries == [bars[0].time] + rest.entries;
        assert b.lastTradeTime == bars[0].time;
        assert forall i :: 1 <= i < |t.entries| ==> t.entries[i] == rest.entries[i - 1];
      } else {
        assert t.entries == rest.entries;
        assert b.lastTradeTime == a.lastTradeTime;
      }
    }
  }

  /** Under the defaults of `Initialize` the cooldown is five minutes. */
  lemma DefaultCooldown(symbol: string, startTime: int, draws: nat -> real, a: Algo, now: int)
    ensures CanTrade(DefaultConfig(symbol, startTime, draws), a, now) <==> now >= a.lastTradeTime + 300
  {
  }

  /** From a fresh start the win rate of any run lies in [0, 100], and the
      first entry is at least five minutes after the start date. */
  lemma FreshRunBounds(symbol: string, startTime: int, draws: nat -> real, bars: seq<Bar>)
    requires Run(DefaultConfig(symbol, startTime, draws), Initialize(DefaultConfig(symbol, startTime, draws)), bars).Success?
    ensures var t := Run(DefaultConfig(symbol, startTime, draws), Initialize(DefaultConfig(symbol, startTime, draws)), bars).value;
      && 0.0 <= WinRate(t.algo) <= 100.0
      && (|t.entries| > 0 ==> t.entries[0] >= startTime + 300)
  {
    var cfg := DefaultConfig(symbol, startTime, draws);
    InitialInv(cfg);
    RunRespectsCooldown(cfg, Initialize(cfg), bars);
  }

  /** A draw stream every draw of which is below 0.3, so the signal fires. */
  function AlwaysFire(k: nat): real {
    0.1
  }

  /** The bar-by-bar scenario: from a fresh start (clock 0), a bar at 100
      five minutes in opens a long with stop 97; a bar at 110 lifts the stop
      to 106.7; a bar at 108 changes nothing; a bar at 106 exits through the
      stop and counts a winning trade (a 6 % return). A bar before the
      cooldown has elapsed neither trades nor consumes a draw. */
  lemma BarScenario()
    ensures var cfg := DefaultConfig("BTCUSD", 0, AlwaysFire);
      && OnData(cfg, Initialize(cfg), Bar(false, Some(100.0), 300, "t1", 100_000.0))
           == Success(Outcome(Algo(Long(100.0, 97.0), 300, 1, 0, 1), [SetHoldings("BTCUSD", 0.95)]))
      && OnData(cfg, Algo(Long(100.0, 97.0), 300, 1, 0, 1), Bar(false, Some(110.0), 360, "t2", 5_000.0))
           == Success(Outcome(Algo(Long(100.0, 106.7), 300, 1, 0, 1), []))
      && OnData(cfg, Algo(Long(100.0, 106.7), 300, 1, 0, 1), Bar(false, Some(108.0), 420, "t3", 5_000.0))
           == Success(Outcome(Algo(Long(100.0, 106.7), 300, 1, 0, 1), []))
      && OnData(cfg, Algo(Long(100.0, 106.7), 300, 1, 0, 1), Bar(false, Some(106.0), 480, "t4", 5_000.0))
           == Success(Outcome(Algo(Flat, 300, 1, 1, 1), [Liquidate("BTCUSD", "Stop loss hit")]))
      && OnData(cfg, Initialize(cfg), Bar(false, Some(100.0), 299, "t0", 100_000.0))
           == Success(Outcome(Initialize(cfg), []))
  {
  }
}

=== FILE: text.dfy ===
/** ASCII case mapping, standing in for Python's `str.lower` / `str.upper`. */
module Text {

  function LowerChar(c: char): (r: char)
    ensures 'A' <= c <= 'Z' ==> 'a' <= r <= 'z'
    ensures !('A' <= c <= 'Z') ==> r == c
  {
    if 'A' <= c <= 'Z' then (c as int + 32) as char else c
  }

  function UpperChar(c: char): (r: char)
    ensures 'a' <= c <= 'z' ==> 'A' <= r <= 'Z'
    ensures !('a' <= c <= 'z') ==> r == c
  {
    if 'a' <= c <= 'z' then (c as int - 32) as char else c
  }

  /** `s.lower()`, restricted to ASCII letters. */
  function Lower(s: string): (r: string)
    ensures |r| == |s|
    ensures forall i :: 0 <= i < |s| ==> r[i] == LowerChar(s[i])
  {
    if |s| == 0 then "" else [LowerChar(s[0])] + Lower(s[1..])
  }

  /** `s.upper()`, restricted to ASCII letters. */
  function Upper(s: string): (r: string)
    ensures |r| == |s|
    ensures forall i :: 0 <= i < |s| ==> r[i] == UpperChar(s[i])
  {
    if |s| == 0 then "" else [UpperChar(s[0])] + Upper(s[1..])
  }
}

=== FILE: universe.dfy ===
/** Building the trading universe in research/scripts/universe_utils.py:
    paging through a market-cap ranking, turning coin symbols into USD
    pairs, and removing repeats. The HTTP responses are an input: the k-th
    request (page k + 1) is answered by `pages[k]`, and a request beyond the
    given responses is answered by an empty page. */
module Universe {
  import Text

  /** One ranking entry; a missing "symbol" key reads as "". */
  datatype CoinEntry = CoinEntry(symbol: string)

  /** The paging parameters of one request. */
  datatype PageRequest = PageRequest(page: nat, perPage: nat)

  const PerPage: nat := 250

  function Min(a: int, b: int): int {
    if a <= b then a else b
  }

  /** `f"{symbol.upper()}USD"`. */
  function Pair(symbol: string): string {
    Text.Upper(symbol) + "USD"
  }

  /** The pairs of one page, in page order, skipping empty symbols. */
  function PagePairs(data: seq<CoinEntry>): seq<string> {
    if |data| == 0 then []
    else if data[0].symbol == "" then PagePairs(data[1..])
    else [Pair(data[0].symbol)] + PagePairs(data[1..])
  }

  /** A page's pairs are exactly the pairs of its non-empty symbols. */
  lemma {:induction false} PagePairsMembers(data: seq<CoinEntry>)
    ensures forall p :: p in PagePairs(data) ==> exists e :: e in data && e.symbol != "" && p == Pair(e.symbol)
    ensures forall e :: e in data && e.symbol != "" ==> Pair(e.symbol) in PagePairs(data)
    decreases |data|
  {
    if |data| > 0 {
      PagePairsMembers(data[1..]);
      assert forall e :: e in data[1..] ==> e in data;
      assert forall e :: e in data ==> e == data[0] || e in data[1..];
    }
  }

  function Response(pages: seq<seq<CoinEntry>>, page: nat): seq<CoinEntry> {
    if 1 <= page <= |pages| then pages[page - 1] else []
  }

  /** The entries of `count` successive responses from page `first` on. */
  function Responses(pages: seq<seq<CoinEntry>>, first: nat, count: nat): seq<CoinEntry>
    decreases count
  {
    if count == 0 then [] else Response(pages, first) + Responses(pages, first + 1, count - 1)
  }

  lemma {:induction false} PagePairsSplit(a: seq<CoinEntry>, b: seq<CoinEntry>)
    ensures PagePairs(a + b) == PagePairs(a) + PagePairs(b)
    decreases |a|
  {
    if |a| > 0 {
      assert (a + b)[0] == a[0];
      assert (a + b)[1..] == a[1..] + b;
      PagePairsSplit(a[1..], b);
    } else {
      assert a + b == b;
    }
  }

  /** The paging loop from page `page` with `remaining` assets still wanted:
      the tickers collected and the requests made. The tickers are the pairs
      of every response received, in order: each page asks for
      min(250, remaining) entries, and the loop stops after an empty or short
      page or once enough entries have arrived. */
  function Collect(pages: seq<seq<CoinEntry>>, remaining: int, page: nat): (r: (seq<string>, seq<PageRequest>))
    ensures remaining <= 0 ==> r == ([], [])
    ensures remaining > 0 ==> |r.1| > 0 && r.1[0] == PageRequest(page, Min(PerPage, remaining))
    ensures forall k :: 0 <= k < |r.1| ==> r.1[k].page == page + k && 1 <= r.1[k].perPage <= PerPage
    ensures forall k :: 0 <= k < |r.1| ==> r.1[k].perPage <= remaining
    decreases if remaining > 0 then remaining else 0
  {
    if remaining <= 0 then ([], [])
    else
      var pageSize := Min(PerPage, remaining);
      var request := PageRequest(page, pageSize);
      var data := Response(pages, page);
      if |data| == 0 then ([], [request])
      else
        var tickers := PagePairs(data);
        if |data| < pageSize then (tickers, [request])
        else
          var (more, requests) := Collect(pages, remaining - |data|, page + 1);
          (tickers + more, [request] + requests)
  }

  /** One round of the paging loop that neither stops nor runs out. */
  lemma CollectStep(pages: seq<seq<CoinEntry>>, remaining: int, page: nat)
    requires remaining > 0
    requires |Response(pages, page)| >= Min(PerPage, remaining)
    ensures var data := Response(pages, page);
      var rest := Collect(pages, remaining - |data|, page + 1);
      Collect(pages, remaining, page) == (PagePairs(data) + rest.0, [PageRequest(page, Min(PerPage, remaining))] + rest.1)
  {
  }

  /** One round of the paging loop that stops after this page. */
  lemma CollectLast(pages: seq<seq<CoinEntry>>, remaining: int, page: nat)
    requires remaining > 0
    requires |Response(pages, page)| < Min(PerPage, remaining)
    ensures Collect(pages, remaining, page) == (PagePairs(Response(pages, page)), [PageRequest(page, Min(PerPage, remaining))])
  {
  }

  /** The tickers collected are the pairs of every response received, in order. */
  lemma {:induction false} CollectedPairs(pages: seq<seq<CoinEntry>>, remaining: int, page: nat)
    ensures Collect(pages, remaining, page).0 == PagePairs(Responses(pages, page, |Collect(pages, remaining, page).1|))
    decreases if remaining > 0 then remaining else 0
  {
    if remaining > 0 {
      var data := Response(pages, page);
      if |data| < Min(PerPage, remaining) {
        CollectLast(pages, remaining, page);
        assert Responses(pages, page, 1) == data + Responses(pages, page + 1, 0);
        assert data + [] == data;
      } else {
        CollectStep(pages, remaining, page);
        var rest := Collect(pages, remaining - |data|, page + 1);
        CollectedPairs(pages, remaining - |data|, page + 1);
        assert Responses(pages, page, 1 + |rest.1|) == data + Responses(pages, page + 1, |rest.1|);
        PagePairsSplit(data, Responses(pages, page + 1, |rest.1|));
      }
    }
  }

  /** The entries of k + 1 responses: the first page's, then the next k. */
  lemma ResponsesCons(pages: seq<seq<CoinEntry>>, page: nat, k: nat)
    ensures |Responses(pages, page, k + 1)| == |Response(pages, page)| + |Responses(pages, page + 1, k)|
  {
  }

  /** Request k of the paging loop asks for min(250, what is still wanted
      after the entries of the k earlier responses). */
  lemma {:induction false} CollectPageSizes(pages: seq<seq<CoinEntry>>, remaining: int, page: nat)
    ensures var rq := Collect(pages, remaining, page).1;
      forall k :: 0 <= k < |rq| ==> rq[k].perPage == Min(PerPage, remaining - |Responses(pages, page, k)|)
    decreases if remaining > 0 then remaining else 0
  {
    if remaining > 0 {
      var data := Response(pages, page);
      if |data| < Min(PerPage, remaining) {
        CollectLast(pages, remaining, page);
      } else {
        CollectStep(pages, remaining, page);
        var rq := Collect(pages, remaining, page).1;
        var rest := Collect(pages, remaining - |data|, page + 1).1;
        CollectPageSizes(pages, remaining - |data|, page + 1);
        forall k | 1 <= k < |rq|
          ensures rq[k].perPage == Min(PerPage, remaining - |Responses(pages, page, k)|)
        {
          assert rq[k] == rest[k - 1];
          ResponsesCons(pages, page, k - 1);
        }
      }
    }
  }

  /** Every request of the paging loop but the last came back full. */
  lemma {:induction false} CollectFullPages(pages: seq<seq<CoinEntry>>, remaining: int, page: nat)
    ensures var rq := Collect(pages, remaining, page).1;
      forall k :: 0 <= k < |rq| - 1 ==> |Response(pages, page + k)| >= rq[k].perPage
    decreases if remaining > 0 then remaining else 0
  {
    if remaining > 0 {
      var data := Response(pages, page);
      if |data| < Min(PerPage, remaining) {
        CollectLast(pages, remaining, page);
      } else {
        CollectStep(pages, remaining, page);
        var rq := Collect(pages, remaining, page).1;
        var rest := Collect(pages, remaining - |data|, page + 1).1;
        CollectFullPages(pages, remaining - |data|, page + 1);
        forall k | 1 <= k < |rq| - 1
          ensures |Response(pages, page + k)| >= rq[k].perPage
        {
          assert rq[k] == rest[k - 1];
          assert page + k == (page + 1) + (k - 1);
        }
      }
    }
  }

  /** The paging loop stopped after its last request because that page was
      short (or empty) or because enough entries had arrived. */
  predicate StoppedRightly(pages: seq<seq<CoinEntry>>, remaining: int, page: nat) {
    var rq := Collect(pages, remaining, page).1;
    |rq| > 0 ==>
      || |Response(pages, page + |rq| - 1)| < rq[|rq| - 1].perPage
      || remaining - |Responses(pages, page, |rq|)| <= 0
  }

  /** A full page hands the stopping reason on from the rest of the loop. */
  lemma StoppedAfterFullPage(pages: seq<seq<CoinEntry>>, remaining: int, page: nat)
    requires remaining > 0
    requires |Response(pages, page)| >= Min(PerPage, remaining)
    requires StoppedRightly(pages, remaining - |Response(pages, page)|, page + 1)
    ensures StoppedRightly(pages, remaining, page)
  {
    var data := Response(pages, page);
    CollectStep(pages, remaining, page);
    var rq := Collect(pages, remaining, page).1;
    var rest := Collect(pages, remaining - |data|, page + 1).1;
    var n := |rest|;
    assert rq == [PageRequest(page, Min(PerPage, remaining))] + rest;
    ResponsesCons(pages, page, n);
    if n > 0 {
      assert rq[n] == rest[n - 1];
      assert page + n == (page + 1) + n - 1;
    }
  }

  lemma {:induction false} CollectStops(pages: seq<seq<CoinEntry>>, remaining: int, page: nat)
    ensures StoppedRightly(pages, remaining, page)
    decreases if remaining > 0 then remaining else 0
  {
    if remaining > 0 {
      var data := Response(pages, page);
      if |data| < Min(PerPage, remaining) {
        CollectLast(pages, remaining, page);
      } else {
        CollectStops(pages, remaining - |data|, page + 1);
        StoppedAfterFullPage(pages, remaining, page);
      }
    }
  }

  predicate NoDuplicates(s: seq<string>) {
    forall i, j :: 0 <= i < j < |s| ==> s[i] != s[j]
  }

  /** Where `x` first occurs in `s`. */
  function FirstIndex(s: seq<string>, x: string): (k: nat)
    requires x in s
    ensures k < |s| && s[k] == x && x !in s[..k]
  {
    if s[0] == x then 0
    else
      var k := FirstIndex(s[1..], x);
      assert s[..k + 1] == [s[0]] + s[1..][..k];
      k + 1
  }

  /** The de-duplicating loop of `fetch_top_marketcap_pairs`: every ticker
      once, the repeats dropped, in order of first occurrence. */
  method Dedupe(tickers: seq<string>) returns (unique: seq<string>)
    ensures NoDuplicates(unique)
    ensures forall x :: x in unique <==> x in tickers
    ensures |unique| <= |tickers|
    ensures forall i, j :: 0 <= i < j < |unique| ==> FirstIndex(tickers, unique[i]) < FirstIndex(tickers, unique[j])
  {
    var seen: set<string> := {};
    unique := [];
    var i := 0;
    while i < |tickers|
      invariant 0 <= i <= |tickers|
      invariant forall x :: x in seen <==> x in unique
      invariant forall x :: x in unique <==> x in tickers[..i]
      invariant forall x :: x in unique ==> x in tickers
      invariant NoDuplicates(unique)
      invariant |unique| <= i
      invariant forall a :: 0 <= a < |unique| ==> FirstIndex(tickers, unique[a]) < i
      invariant forall a, b :: 0 <= a < b < |unique| ==> FirstIndex(tickers, unique[a]) < FirstIndex(tickers, unique[b])
    {
      var pair := tickers[i];
      assert tickers[..i + 1] == tickers[..i] + [pair];
      if pair !in seen {
        var k := FirstIndex(tickers, pair);
        assert k == i;
        seen := seen + {pair};
        unique := unique + [pair];
      }
      i := i + 1;
    }
    assert tickers[..i] == tickers;
  }

  /** In a sequence ordered by first occurrence in `s`, an element that first
      occurs earlier in `s` sits earlier in the sequence. */
  lemma OrderedByFirstIndex(s: seq<string>, u: seq<string>, k: nat, j: nat)
    requires forall x :: x in u ==> x in s
    requires forall a, b :: 0 <= a < b < |u| ==> FirstIndex(s, u[a]) < FirstIndex(s, u[b])
    requires k < |u| && j < |u|
    requires FirstIndex(s, u[k]) < FirstIndex(s, u[j])
    ensures k < j
  {
  }

  /** Python's `s[:limit]`, including the negative-limit form. */
  function Take(s: seq<string>, limit: int): (r: seq<string>)
    ensures limit >= 0 ==> |r| == Min(limit, |s|)
    ensures limit < 0 ==> |r| == (if |s| + limit >= 0 then |s| + limit else 0)
    ensures |r| <= |s| && r == s[..|r|]
  {
    if limit >= |s| then s
    else if limit >= 0 then s[..limit]
    else if |s| + limit >= 0 then s[..|s| + limit]
    else []
  }

  /** `fetch_top_marketcap_pairs(limit)` against the given responses: the
      pairs and the requests made. At most `limit` distinct USD pairs, in
      order of first occurrence, each built from a non-empty symbol of some
      response; no request at all when the limit is not positive; every
      request asks for at most 250 entries, the first for min(250, limit). */
  method FetchTopMarketcapPairs(pages: seq<seq<CoinEntry>>, limit: int := 50) returns (pairs: seq<string>, requests: seq<PageRequest>)
    ensures NoDuplicates(pairs)
    ensures |pairs| <= (if limit > 0 then limit else 0)
    ensures limit <= 0 ==> pairs == [] && requests == []
    ensures requests == Collect(pages, if limit > 0 then limit else 0, 1).1
    ensures limit > 0 ==> |requests| > 0 && requests[0] == PageRequest(1, Min(PerPage, limit))
    ensures forall k :: 0 <= k < |requests| ==> requests[k].page == k + 1 && 1 <= requests[k].perPage <= PerPage
    ensures forall p :: p in pairs ==> exists e :: e in Responses(pages, 1, |requests|) && e.symbol != "" && p == Pair(e.symbol)
    ensures forall p :: p in pairs ==> p in PagePairs(Responses(pages, 1, |requests|))
    ensures forall i, j :: 0 <= i < j < |pairs| ==>
      FirstIndex(PagePairs(Responses(pages, 1, |requests|)), pairs[i]) < FirstIndex(PagePairs(Responses(pages, 1, |requests|)), pairs[j])
    ensures forall j, p ::
        0 <= j < |pairs| && p in PagePairs(Responses(pages, 1, |requests|))
        && FirstIndex(PagePairs(Responses(pages, 1, |requests|)), p) < FirstIndex(PagePairs(Responses(pages, 1, |requests|)), pairs[j])
        ==> p in pairs
    ensures limit > 0 && |pairs| < limit ==> forall p :: p in PagePairs(Responses(pages, 1, |requests|)) ==> p in pairs
  {
    var remaining := if limit > 0 then limit else 0;
    var collected := Collect(pages, remaining, 1);
    var tickers := collected.0;
    requests := collected.1;
    CollectedPairs(pages, remaining, 1);
    PagePairsMembers(Responses(pages, 1, |requests|));
    var unique := Dedupe(tickers);
    if limit <= 0 {
      assert unique == [];
    }
    pairs := Take(unique, limit);
    assert forall i :: 0 <= i < |pairs| ==> pairs[i] == unique[i];
    assert forall p :: p in pairs ==> p in unique;
    forall j, p | 0 <= j < |pairs| && p in tickers && FirstIndex(tickers, p) < FirstIndex(tickers, pairs[j])
      ensures p in pairs
    {
      var k :| 0 <= k < |unique| && unique[k] == p;
      OrderedByFirstIndex(tickers, unique, k, j);
      assert pairs[k] == p;
    }
    if limit > 0 && |pairs| < limit {
      assert pairs == unique;
    }
  }
}

=== FILE: wrappers.dfy ===
/** Failure-compatible wrappers shared by every module of the model:
    `Option` stands for Python's `None`-or-value, `Result` for a value or a
    raised exception. */
module Wrappers {

  datatype Option<+T> = None | Some(value: T) {
    /** The value, or `default` when absent (Python's `x if x is not None else default`). */
    function GetOr(default: T): T {
      match this
      case Some(v) => v
      case None => default
    }
  }

  datatype Result<+R, +E> = Success(value: R) | Failure(error: E) {
    predicate IsFailure() {
      Failure?
    }

    function PropagateFailure<U>(): Result<U, E>
      requires Failure?
    {
      Failure(error)
    }

    function Extract(): R
      requires Success?
    {
      value
    }
  }
}
